=== FILE: README.md ===
# Weather pipeline core, modelled in Dafny

This project models the deterministic bookkeeping of the `weather_pipeline` package: one
ingestion run that fetches forecasts for configured locations from the Open-Meteo API,
standardizes them into hourly or daily rows, and writes one Parquet file per location under
`interval/location/YYYY-MM-DD`. It also models the per-location fetch-state tracker with its
JSON file store, and the YAML configuration merge and validation.

Everything is a pure function over immutable datatypes. The clock, the run id, the HTTP
exchange, `datetime.fromisoformat` and the file system are parameters or values:

- the JSON store is a value `Store(disk, cache)`, and every operation returns the store after it;
- a data frame is the sequence of its rows;
- a fetch is a `Transport` function, mapped over the locations one after the other.

Modules follow the package layout:

| module | file | source |
|---|---|---|
| `Wrappers` | wrappers.dfy | `Option` / `Result` |
| `Text` | text.dfy | Python's `sep.join` and `s.split(sep)` |
| `Calendar` | calendar.dfy | dates, the RFC 3339 section 5.6 `full-date`, the file-name stamp |
| `Schemas` | schemas.dfy | weather_pipeline/models/schemas.py |
| `FetchState` | state.dfy | weather_pipeline/state/models.py |
| `JsonStore` | json_store.dfy | weather_pipeline/state/json_store.py |
| `Transforms` | transforms.dfy | weather_pipeline/transforms/transform.py |
| `ParquetWriter` | writer.dfy | weather_pipeline/writers/parquet.py |
| `OpenMeteo` | client.dfy | weather_pipeline/clients/openmeteo.py |
| `Config` | config.dfy | weather_pipeline/config_handler/load_configs.py |
| `Pipeline` | pipeline.dfy | weather_pipeline/pipeline.py |

Where the code and its documentation disagree, the model follows the code:

- `get_partition_path` produces `interval/name/YYYY-MM-DD`. Its docstring's
  `{interval}/location={name}/date={YYYY-MM-DD}/` form is not what the code produces.
- `_deep_merge` and the metadata step of `_fetch_single` do not do what the tests and
  schemas expect. Both are modelled as written and as corrected (see "## Findings"). The
  rest of the model uses the corrected versions.

## Model

| member | source | states |
|---|---|---|
| Schemas.NewFetchError | weather_pipeline/models/schemas.py:41-45 | an error built from a location and a message keeps both verbatim, and its status defaults to "failed" |
| Schemas.NewWriteResult | weather_pipeline/models/schemas.py:101-105 | a write result's format defaults to "parquet"; path and count are kept |
| Schemas.NewPipelineResult | weather_pipeline/models/schemas.py:109-118 | a run result built without optional fields has 0 records, no files, no failures and no error |
| FetchState.NewLocationFetchState | weather_pipeline/state/models.py:12-23 | a new record carries its identity, status success, no error, 0 records, no forecast end, and is stamped with the creation time |
| FetchState.IsFresh | weather_pipeline/state/models.py:28-41 | never fresh unless the last fetch succeeded; a success is fresh iff elapsed seconds / 3600 < hours, in exact real arithmetic |
| FetchState.MarkSuccess | weather_pipeline/state/models.py:43-54 | status success, error cleared, the record count set, stamped now; the forecast end is replaced only by a truthy date and kept otherwise; identity unchanged |
| FetchState.MarkFailure | weather_pipeline/state/models.py:56-61 | status failure, the message kept verbatim, 0 records, stamped now; forecast end and identity unchanged |
| FetchState.FailureIsNeverFresh | weather_pipeline/state/models.py:28-41 | after a failure, the record is not fresh at any later time for any window |
| FetchState.SuccessFreshWindow | weather_pipeline/state/models.py:40-54 | after a success, the record stays fresh for exactly `hours` hours |
| FetchState.DefaultFreshWindow | weather_pipeline/state/models.py:28-41 | under the default `hours=6`, a success stays fresh for exactly 21600 seconds |
| FetchState.NewPipelineState | weather_pipeline/state/models.py:64-69 | a new state document has version "1.0" and no locations |
| FetchState.GetLocation | weather_pipeline/state/models.py:74-83 | get-or-create under `provider:interval:location_name`: an existing entry is returned with the state unchanged; a missing key gains exactly one default entry and no other key changes |
| FetchState.GetLocationIdempotent | weather_pipeline/state/models.py:77-83 | a second lookup with the same arguments returns the same entry and leaves the state as the first left it |
| FetchState.CreatedEntryKey | weather_pipeline/state/models.py:76-82 | a created entry is filed under the key its own identity fields produce |
| FetchState.NewStateWellKeyed | weather_pipeline/state/models.py:64-69 | the empty state files every entry under its own key |
| FetchState.GetLocationKeepsWellKeyed | weather_pipeline/state/models.py:74-83 | a lookup preserves the "every entry under its own key" invariant and returns an entry with the identity asked for |
| FetchState.UpdateLastModified | weather_pipeline/state/models.py:85-87 | only the modification stamp changes; version and locations are untouched |
| FetchState.KeyInjective | weather_pipeline/state/models.py:76 | the composite key determines location, provider and interval when provider and interval contain no colon |
| FetchState.KeyCollision | weather_pipeline/state/models.py:76 | without that proviso two different provider/interval pairs collide on one key |
| JsonStore.Open | weather_pipeline/state/json_store.py:17-24 | a new store has nothing cached and does not touch the file |
| JsonStore.Load | weather_pipeline/state/json_store.py:26-45 | a cached state is returned without reading the file; otherwise the file's state, or an empty state when the file is missing, not JSON or fails the schema; the answer is cached and the file never changes; with nothing cached, JSON that is not an object or bytes that are not UTF-8 raise, with their message, and nothing is cached |
| JsonStore.Save | weather_pipeline/state/json_store.py:47-55 | the file and the cache both hold the saved state |
| JsonStore.SaveThenLoad | weather_pipeline/state/json_store.py:26-55 | what was saved is what the next load returns |
| JsonStore.SaveSurvivesReopen | weather_pipeline/state/json_store.py:17-55 | a new store opened on the saved file loads the saved state |
| JsonStore.LoadIdempotent | weather_pipeline/state/json_store.py:26-34 | after a load that returns, a second load returns the same state and leaves the store unchanged |
| JsonStore.GetLocation | weather_pipeline/state/json_store.py:57-62 | raises exactly when the load raises, with its message; otherwise the returned entry is the cached one under its key and the file never changes |
| JsonStore.LookupKeepsWellKeyed | weather_pipeline/state/json_store.py:57-62 | when the load returns, the store lookup returns too, caches exactly the state-level lookup's result and preserves the own-key invariant |
| JsonStore.UpdateLocation | weather_pipeline/state/json_store.py:64-70 | raises exactly when the load raises; otherwise the entry replaces whatever was under its own key, every other key is untouched, the stamp is refreshed, and the file equals the cache |
| JsonStore.MarkFetchSuccess | weather_pipeline/state/json_store.py:72-83 | raises exactly when the load raises, with its message, before anything is written; otherwise, on a well-keyed state, the entry under the key is exactly `mark_success` of the looked-up entry: a success with the given count, no error, the current stamp, and a forecast end that the new one replaces only when it is truthy (present and non-empty); every other key is as after the lookup; the file equals the cache |
| JsonStore.MarkFetchFailure | weather_pipeline/state/json_store.py:85-95 | raises exactly when the load raises, with its message, before anything is written; otherwise, on a well-keyed state, the entry under the key is exactly `mark_failure` of the looked-up entry: a failure with the message verbatim and 0 records, its forecast end kept; every other key is as after the lookup; the file equals the cache |
| JsonStore.ForecastEndSurvivesFailure | weather_pipeline/state/json_store.py:72-95 | a success that records a forecast end, followed by a failure on the same key, leaves that forecast end in place |
| JsonStore.CachedStoreNeverRaises | weather_pipeline/state/json_store.py:26-29 | once a state is cached the file is not read again, so a mark cannot raise |
| JsonStore.SuccessThenFailureKeepsBoth | weather_pipeline/tests/test_state.py:7-31 | starting with no state file, a London success then a Tokyo failure both return and leave both entries on disk, London's still the success with 42 records |
| Transforms.TransformHourly | weather_pipeline/transforms/transform.py:14-58 | a missing `hourly` or `time` key is an error; otherwise it succeeds iff every time entry parses and every present series reaches the length of `time`; then there is one row per time entry, each the row the payload dictates |
| Transforms.TransformDaily | weather_pipeline/transforms/transform.py:61-101 | the same for the daily section and its three measurements |
| Transforms.RowAtOk | weather_pipeline/transforms/transform.py:30-50 | row i can be built iff `time[i]` parses and every present series has an entry i |
| Transforms.RowAtHourly | weather_pipeline/transforms/transform.py:31-53 | a built hourly row carries the location, requested and API coordinates, parsed time, `series[i]` of each present series (`cloudcover`/`weathercode` feed `cloud_cover`/`weather_code`), None for absent ones, source "open-meteo", the ingestion stamp and the run id |
| Transforms.RowAtDaily | weather_pipeline/transforms/transform.py:78-96 | the same for a daily row |
| Transforms.RowsOfSpec | weather_pipeline/transforms/transform.py:29-54 | building rows in order succeeds iff the section is transformable; then the frame has one row per time entry, row i the one index i dictates |
| Transforms.HourlyMissingSeriesIsNull | weather_pipeline/transforms/transform.py:38-50 | removing one measurement series leaves the transform succeeding, with the same rows except that measurement is None in every row |
| Transforms.DailyMissingSeriesIsNull | weather_pipeline/transforms/transform.py:85-93 | removing one daily series (maximum or minimum temperature, precipitation sum) leaves the daily transform succeeding, with the same rows except that measurement is None in every row |
| Transforms.HourlyRowOfUnique | weather_pipeline/transforms/transform.py:31-53 | the payload determines each hourly row completely |
| Transforms.ReplaceZ | weather_pipeline/transforms/transform.py:111 | the result has no 'Z' left, and a string without 'Z' is unchanged |
| Transforms.ReplaceZConcat | weather_pipeline/transforms/transform.py:111 | the replacement distributes over concatenation: it works character by character |
| Transforms.ReplaceZChar | weather_pipeline/transforms/transform.py:111 | a lone 'Z' becomes "+00:00" and any other character stays |
| Transforms.ReplaceTrailingZ | weather_pipeline/transforms/transform.py:111 | a timestamp whose only 'Z' is its last character gets "+00:00" in its place and is otherwise unchanged |
| Transforms.PartitionPath | weather_pipeline/transforms/transform.py:104-113 | fails exactly when the rewritten timestamp does not parse; otherwise the path is the interval, '/', the location name, '/', and the `full-date` of the timestamp's date; when neither the interval nor the name contains '/', splitting it on '/' gives back exactly those three parts |
| Transforms.PartitionPathSplits | weather_pipeline/transforms/transform.py:109-113 | a partition path splits into exactly interval, name and date when neither name contains '/' |
| Transforms.PartitionPathDateOnly | weather_pipeline/transforms/transform.py:111-113 | two timestamps on the same calendar day give the same path |
| Transforms.PartitionPathInjective | weather_pipeline/transforms/transform.py:104-113 | different intervals, names or days give different paths |
| Calendar.FullDateRoundTrip | weather_pipeline/transforms/transform.py:112 | reading back a printed `YYYY-MM-DD` gives the date |
| Calendar.FullDateCanonical | weather_pipeline/transforms/transform.py:112 | every accepted `YYYY-MM-DD` text is the printed form of the date it denotes |
| Calendar.FullDateInjective | weather_pipeline/transforms/transform.py:112 | distinct dates print differently |
| Calendar.CompactStamp | weather_pipeline/writers/parquet.py:31 | `%Y%m%dT%H%M%SZ`: 16 characters, each field zero-padded in its slot (year 0-3, month 4-5, day 6-7, hour 9-10, minute 11-12, second 13-14), 'T' at 8 and 'Z' at 15 |
| Calendar.CompactStampInjective | weather_pipeline/writers/parquet.py:31 | distinct clock readings (to the second) give distinct stamps |
| ParquetWriter.FileName | weather_pipeline/writers/parquet.py:30-32 | `data_` + the stamp of the clock reading + `.parquet`: 29 characters and free of '/' |
| ParquetWriter.FilePathSplits | weather_pipeline/writers/parquet.py:27-33 | the file path's components are the base path's, then every component of the partition path, then the file name |
| ParquetWriter.Write | weather_pipeline/writers/parquet.py:23-43 | reports the frame's row count and format "parquet"; the path contains every component of the partition path and ends with the file name |
| ParquetWriter.DistinctNames | weather_pipeline/writers/parquet.py:53 | the names have no repeats and are exactly the names occurring in the rows |
| ParquetWriter.Group | weather_pipeline/writers/parquet.py:55 | a location's group is non-empty iff some row carries its name |
| ParquetWriter.GroupMembers | weather_pipeline/writers/parquet.py:55 | a group holds exactly the rows carrying its name |
| ParquetWriter.WriteGroup | weather_pipeline/writers/parquet.py:55-69 | one location's write reports its group's size |
| ParquetWriter.WritePartitioned | weather_pipeline/writers/parquet.py:45-72 | one write per distinct location name, each reporting that location's rows, format "parquet" |
| ParquetWriter.WritePartitionedFile | weather_pipeline/writers/parquet.py:57-69 | the k-th file lies under the partition of its location, dated by that location's first row's ingestion timestamp |
| ParquetWriter.WritePartitionedTotal | weather_pipeline/writers/parquet.py:45-72 | the reported record counts add up to the number of input rows: no row lost or written twice |
| OpenMeteo.DefaultClient | weather_pipeline/clients/openmeteo.py:23-41 | the documented defaults: Open-Meteo forecast URL, timeout 10, 5 concurrent requests, no variables, 7 days, UTC |
| OpenMeteo.BuildParams | weather_pipeline/clients/openmeteo.py:43-57 | the query always has the location's coordinates and the client's days and timezone; "hourly"/"daily" are present iff their list is non-empty, holding the comma-joined list; no other keys |
| OpenMeteo.HourlyParamsRoundTrip | weather_pipeline/clients/openmeteo.py:53-54 | splitting the "hourly" value at commas gives back exactly the requested variables, in order |
| OpenMeteo.DailyParamsRoundTrip | weather_pipeline/clients/openmeteo.py:55-56 | the same for "daily" |
| Text.SplitJoin | weather_pipeline/clients/openmeteo.py:54 | `s.split(sep)` inverts `sep.join(xs)` for non-empty lists of separator-free strings |
| OpenMeteo.ApiErrorMessage | weather_pipeline/clients/openmeteo.py:70-71 | the message is "API Error: " followed by the `str()` of the reason |
| OpenMeteo.BuildMetadata | weather_pipeline/clients/openmeteo.py:74-88 | corrected metadata step: a missing `utc_offset_seconds` is a KeyError; otherwise it succeeds iff the API fields have their declared types, copying the response facts, the clock reading and the body's values |
| OpenMeteo.AsWrittenMetadataRejectsValidBodies | weather_pipeline/clients/openmeteo.py:74-88 | as written, the metadata step fails validation on every body the corrected step accepts |
| OpenMeteo.FetchWith | weather_pipeline/clients/openmeteo.py:59-105 | exactly one outcome for the location; a transport or decoding exception becomes a "failed" error with its message; it succeeds iff the exchange, decoding and metadata all succeed with no truthy "error"; a success carries the raw body and the location unchanged |
| OpenMeteo.ApiErrorReported | weather_pipeline/clients/openmeteo.py:70-71 | a truthy "error" field yields a failure whose message is "API Error: " + reason |
| OpenMeteo.FetchAllWith | weather_pipeline/clients/openmeteo.py:107-116 | one outcome per input location, in input order, outcome i being that location's fetch |
| OpenMeteo.FetchData | weather_pipeline/clients/openmeteo.py:107-116 | with the corrected metadata step, one outcome per location, in order, each for its location |
| OpenMeteo.FetchDataAsWritten | weather_pipeline/clients/openmeteo.py:107-116 | the same shape as written |
| OpenMeteo.AsWrittenEveryFetchFails | weather_pipeline/clients/openmeteo.py:74-79 | as written, every location's outcome is a failure whatever the server answers |
| OpenMeteo.CorrectedFetchSucceeds | weather_pipeline/clients/openmeteo.py:90-95 | corrected, a well-formed answer is a result carrying the body and location unchanged, stamped with the fetch's clock reading |
| Config.Put | weather_pipeline/config_handler/load_configs.py:37-39 | after `d[key] = v`, key maps to v, every other key is unchanged, the key set gains key, and keys stay unique |
| Config.DeepMergeSpec | weather_pipeline/config_handler/load_configs.py:32-39 | keys absent from the override keep their base value; override keys take the recursive merge when both are mappings, else the override value |
| Config.DeepMergeUnique | weather_pipeline/config_handler/load_configs.py:32-39 | the merge of a mapping repeats no key |
| Config.DeepMergeKeys | weather_pipeline/config_handler/load_configs.py:32-39 | a key is in the merge iff it is in the base or in the override |
| Config.DeepMergeEmptyOverride | weather_pipeline/tests/test_config.py:65-75 | the corrected merge with an empty override is the base |
| Config.MergeKeepsBase | weather_pipeline/config_handler/load_configs.py:34 | corrected: a key the override does not name keeps its base value |
| Config.MergeTakesOverride | weather_pipeline/config_handler/load_configs.py:35-39 | corrected: a key the override names takes the override's value, merged into the base value when both are mappings |
| Config.MergeReplaces | weather_pipeline/config_handler/load_configs.py:38-39 | corrected: a non-mapping override value replaces the base value |
| Config.MergeRecurses | weather_pipeline/config_handler/load_configs.py:36-37 | corrected: two mappings under one key merge recursively |
| Config.DeepMergeAsWritten | weather_pipeline/config_handler/load_configs.py:32-40 | as written: `None` iff the override is empty; otherwise exactly the first override key changes: it takes the override value, or the as-written nested merge of two mappings (`None` when the nested override is empty), the key set gains it, and every other key keeps its base value |
| Config.AsWrittenIgnoresLaterKeys | weather_pipeline/tests/test_config.py:45-62 | as written, the precedence test's override loses interval, forecast days and locations |
| Config.AsWrittenEmptyOverrideIsNone | weather_pipeline/tests/test_config.py:65-75 | as written, an empty override yields `None` where the test expects the base |
| Config.PrecedenceInterval | weather_pipeline/tests/test_config.py:53 | the override's interval "hourly" wins |
| Config.PrecedenceForecastDays | weather_pipeline/tests/test_config.py:54 | the override's 14 forecast days win over the default 7 |
| Config.PrecedenceLocations | weather_pipeline/tests/test_config.py:60-62 | the override's new locations list arrives |
| Config.PrecedenceStorage | weather_pipeline/tests/test_config.py:58 | the storage section the override does not mention survives |
| Config.PrecedenceApi | weather_pipeline/tests/test_config.py:50-57 | the two `api` sections are merged recursively |
| Config.PrecedenceApiTimeout | weather_pipeline/tests/test_config.py:50 | inside `api`, the override's timeout 60 wins |
| Config.PrecedenceApiRetries | weather_pipeline/tests/test_config.py:57 | inside `api`, the default-only `max_retries` 3 survives |
| Config.MergePrecedence | weather_pipeline/tests/test_config.py:45-62 | the corrected merge passes the precedence test at the top level |
| Config.IntField | weather_pipeline/config_handler/load_configs.py:64 | an `int` field: absent gives the default; present validates iff it is a whole number, and then gives that number |
| Config.StrField | weather_pipeline/config_handler/load_configs.py:65 | a `str` field: absent gives the default; present validates iff it is a string, and then gives it |
| Config.StrListField | weather_pipeline/config_handler/load_configs.py:62-63 | a `list[str]` field: absent gives the empty list; present validates iff it is a list of strings |
| Config.IntervalField | weather_pipeline/config_handler/load_configs.py:61 | the interval defaults to hourly and is accepted iff it is "hourly" or "daily", which it then names |
| Config.Section | weather_pipeline/config_handler/load_configs.py:59-66 | a nested section defaults to all its defaults and must otherwise be a mapping |
| Config.LocationOfSpec | weather_pipeline/models/schemas.py:8-12 | a location item is accepted iff it has a string name and numeric coordinates, and the location holds them verbatim |
| Config.Locations | weather_pipeline/config_handler/load_configs.py:60 | the list validates iff every item is a location, which it then holds in order |
| Config.LoadApiConfig | weather_pipeline/config_handler/load_configs.py:42-47 | validates iff each of `base_url`, `timeout_seconds` and `max_concurrent_requests` validates, each field then being that entry's value or its default (the Open-Meteo URL, 30, 5); a failure names one of the three |
| Config.LoadStorageConfig | weather_pipeline/config_handler/load_configs.py:49-54 | validates iff each of `backend`, `base_path` and `compression` is absent or a string, each field then being that entry or its default ("local", "data/weather", "snappy"); a failure names one of the three |
| Config.LoadConfig | weather_pipeline/config_handler/load_configs.py:56-66 | validates iff `locations` is present and a list of locations, both sections are mappings whose fields validate, and every top-level field validates; a valid document's fields, including the nested `api` and `storage` configurations, are its validated entries |
| Config.LoadConfigDefaults | weather_pipeline/config_handler/load_configs.py:42-66 | a document naming only locations validates to every documented default |
| Config.IntervalRestricted | weather_pipeline/config_handler/load_configs.py:61 | any interval other than "hourly" or "daily" is rejected |
| Config.OverrideIntervalWins | weather_pipeline/config_handler/load_configs.py:22-29 | corrected: with an override file, a scalar interval it gives is the configured interval |
| Config.OverrideForecastDaysWins | weather_pipeline/config_handler/load_configs.py:22-29 | corrected: the same for forecast days |
| Config.OverrideTimezoneWins | weather_pipeline/config_handler/load_configs.py:22-29 | corrected: the same for the timezone |
| Config.NoOverrideUsesDefaults | weather_pipeline/config_handler/load_configs.py:18-29 | without an override file only the defaults document is validated |
| Config.LoadsFromLookups | weather_pipeline/config_handler/load_configs.py:42-66 | a document whose entries are those of the precedence test's merge validates to hourly, 14 days, timeout 60, the given locations, and defaults elsewhere |
| Config.MergedLoads | weather_pipeline/config_handler/load_configs.py:18-39 | corrected: loading a defaults document with an override of the precedence test's shape gives the override's interval, days, locations, base URL and timeout, the defaults' storage, and the documented defaults elsewhere |
| Config.PrecedenceShaped | weather_pipeline/tests/test_config.py:45-62 | the precedence test's two documents have that shape, with London and Tokyo as the locations |
| Pipeline.Failures | weather_pipeline/pipeline.py:55-60 | the failures are exactly the error outcomes |
| Pipeline.Successes | weather_pipeline/pipeline.py:55-64 | the results are exactly the successful outcomes |
| Pipeline.ClassifyOne | weather_pipeline/pipeline.py:55-64 | a single outcome lands in the failures if it is an error and in the results otherwise |
| Pipeline.FailuresConcat | weather_pipeline/pipeline.py:55-60 | the failures keep input order: those of two runs of outcomes back to back are the first's followed by the second's |
| Pipeline.SuccessesConcat | weather_pipeline/pipeline.py:55-64 | the results keep input order in the same way |
| Pipeline.ClassificationPartitions | weather_pipeline/pipeline.py:55-64 | every outcome is classified exactly once |
| Pipeline.TransformAll | weather_pipeline/pipeline.py:44-64 | every result is transformed once with the run id by the interval's transform; the first transform that raises ends the run with its error |
| Pipeline.ConcatLength | weather_pipeline/pipeline.py:79 | concatenation keeps every row of every frame |
| Pipeline.Aggregate | weather_pipeline/pipeline.py:55-102 | a raising transform ends the run with its error; no result: success false, 0 records, no files, the "All locations failed" error and all failures; results whose transforms yield no rows at all: the writer's `location_name` lookup raises; otherwise success, files the partitioned writes (at least one), records the sum of their counts and the number of transformed rows, more than zero |
| Pipeline.RecordsAreTimeEntries | weather_pipeline/pipeline.py:61-83 | the rows processed number one per time entry of every fetched location's selected section |
| Pipeline.ClientFor | weather_pipeline/pipeline.py:27-35 | the client takes the configured API settings and only the selected interval's variables |
| Pipeline.OnlySelectedIntervalRequested | weather_pipeline/pipeline.py:27-35 | a run never requests the other interval's variables |
| Pipeline.RunPipeline | weather_pipeline/pipeline.py:49-102 | a failed run wrote nothing and failed every configured location; every reported failure is a configured location; a successful run wrote at least one file, its records add up over its files and are more than zero, and it reports no error |
| Pipeline.EveryLocationAccountedFor | weather_pipeline/pipeline.py:49-64 | each configured location yields exactly one result or one failure, and nothing else appears |
| Pipeline.AsWrittenRunAlwaysFails | weather_pipeline/pipeline.py:67-77 | with the client as written, every run fails all locations and writes nothing |
| Pipeline.NoResultsWhenAllFail | weather_pipeline/pipeline.py:67 | outcomes that are all failures leave no results |

## Left out

- File and columnar I/O: opening files, JSON and YAML encoding, `mkdir`, polars frames and
  `write_parquet` with its compression. A data frame is its row sequence. The state file is a
  `Disk` value that is absent, recoverably corrupt, unreadable (the message of the exception
  that escapes `load()`) or holds a document.
- Network and concurrency: the httpx exchange is the `Transport` parameter. The semaphore
  and `asyncio.gather` become a sequential map, because gather preserves input order.
- Clocks, `uuid4` and `datetime.fromisoformat`: every `datetime.now()` reading and the run id
  are parameters, and `fromisoformat` is the `Parser` parameter. Nothing is proved about ISO 8601
  parsing itself.
- Floating point: coordinates and measurements are `real` values that are only copied, never
  computed with. `elapsed_ms` is taken from the response.
- FetchState.IsFresh: instants are whole seconds, so sub-second timestamps are not modelled.
- Schemas.WeatherRow: pydantic's validation of row cells is not modelled. Lax mode coerces a
  numeric string or a bool where a float is expected and rejects other values. A row keeps the
  payload's cell as decoded.
- Transforms.TransformHourly: a series entry pydantic would reject (`"n/a"` for a float, a
  non-integral `weather_code`) raises `ValidationError` in the source; the model builds the row
  with the cell as decoded and does not promise that failure. Pydantic's validators are foreign code.
- Transforms.TransformDaily: the same for daily cells.
- Transforms.RowAtOk: the same; "row i can be built" does not include pydantic's cell checks.
- OpenMeteo.BuildMetadata: numbers are accepted for float fields and whole numbers for
  `utc_offset_seconds`; pydantic's lax coercion of numeric strings and bools is not modelled.
- Config.IntField: a whole number validates; pydantic's lax acceptance of numeric strings
  (`"30"`) and bools is not modelled, so such a value is reported invalid.
- Config.LocationOfSpec: the coordinates must be numbers; a numeric string that pydantic would
  coerce to a float is not modelled.
- Pipeline.Aggregate: when some results yield rows and others none, the empty frames have no
  columns and `pl.concat` of frames with different schemas may raise; the model concatenates
  the rows. Only the case where every frame is empty is modelled as raising.
- OpenMeteo.ValidationMessage: pydantic's full error report is abbreviated to the model's name.
- ParquetWriter.Write: the path is joined with "/" as text. `pathlib` normalisation (duplicate or
  trailing separators) is not modelled.
- ParquetWriter.FileName: the stamp is read from a naive local clock and labelled "Z". The
  model takes whatever clock reading it is given.
- ParquetWriter.GroupPartition: `write_partitioned` turns the first row's ingestion timestamp into
  ISO text and reparses it. The model uses that timestamp's date directly, assuming the
  `isoformat`/`fromisoformat` round trip.
- ParquetWriter.DistinctNames: polars' `unique()` does not promise an order. The model fixes
  first-appearance order, and every property proved does not depend on the order.
- JsonStore.MarkFetchSuccess: in the source, `get_location` returns the cached entry object,
  which is mutated in place and then also filed under the key of its own fields. The model
  files the updated entry under that key only. The two agree on every state in which each
  entry sits under its own key, which is what the contract assumes; the same holds for
  JsonStore.MarkFetchFailure.
- Config.LoadConfigYml: the default path, the `Path(config_path).exists()` check and the
  `FileNotFoundError` of a missing defaults file are file-system behaviour. An override is
  `Some(document)` or `None`, and the function's properties are stated by the
  `Override…Wins`, `NoOverrideUsesDefaults` and `MergedLoads` lemmas.
- Config.DeepMerge: an override value that is not a mapping at the top level, or YAML that is
  not a mapping, is not modelled.
- load_configs.py declares `-> PipelineConfig` before `PipelineConfig` is defined, which fails
  at import. The model treats the module as importable.
- Schemas.Payload: a decoded body is top-level scalars plus sections mapping names to lists of
  scalars, so bodies of other shapes have no counterpart in the model:
  - an `error` that is a non-empty list or object is truthy, and weather_pipeline/clients/openmeteo.py:70-71
    raises `ValueError`, so the location becomes a failed fetch;
  - a series that is `null`, such as `"temperature_2m": null` inside `hourly`, makes
    `hourly.get(...)[i]` raise `TypeError` at weather_pipeline/transforms/transform.py:38, and the
    run raises; leaving the series out instead gives `None` cells;
  - a `hourly` or `daily` value that is `null`, a list or a scalar makes `["time"]` raise
    `TypeError` at weather_pipeline/transforms/transform.py:24-30, where the model can only say
    that the section is missing, which is a `KeyError`;
  - a `time` value that is `null` makes `enumerate` raise `TypeError`.

  JSON decoding is foreign code, and the model takes its result as a typed value.
- Logging and `print` output.
- weather_ingestion.py, the Airflow and scheduler examples, weather_pipeline/utils/load_configs.py,
  and the protocol and `__init__` files: these are command-line glue, scheduling, a broken
  duplicate of the config loader, and package export lists. They are not part of this model.
- Package imports: three of the export lists cannot be imported as written.
  weather_pipeline/transforms/__init__.py:3 imports `get_partition_paths`, but transform.py
  defines only `get_partition_path`. weather_pipeline/clients/__init__.py:6-9 never closes
  its `__all__ = [` list, which is a syntax error. weather_pipeline/tests/test_config.py:5
  imports `_deep_merge` from a package that does not export it. pipeline.py and
  writers/parquet.py import through the first two packages. The model treats every package
  as importable and models the functions the modules define.

## Findings

| source | as written | input that shows it | evidently intended | confidence | as-written member | corrected member |
|---|---|---|---|---|---|---|
| weather_pipeline/config_handler/load_configs.py:35-40 | the `return result` sits inside the `for` loop: only the first override key is merged, and an empty override returns `None` | the two documents of weather_pipeline/tests/test_config.py:45-62 (interval stays "daily", no locations); the empty override of test_config.py:65-75 (result `None`) | return after the loop, so that every override key is applied and an empty override gives the base back | high; not executed | Config.DeepMergeAsWritten, Config.AsWrittenIgnoresLaterKeys, Config.AsWrittenEmptyOverrideIsNone | Config.DeepMerge, Config.DeepMergeSpec, Config.MergePrecedence, Config.DeepMergeEmptyOverride, Config.LoadConfigYml |
| weather_pipeline/clients/openmeteo.py:74-88 | `IngestionMetadata(timestamp=...)` and `APIMetadata(latitude=..., longitude=...)` use names the schemas (weather_pipeline/models/schemas.py:15-29) do not declare, so the required `ingestion_timestamp_utc`, `api_latitude` and `api_longitude` are missing and validation raises | any well-formed response: every location ends as a failed fetch, and every run reports "All locations failed to fetch data." | pass the values as `ingestion_timestamp_utc=`, `api_latitude=` and `api_longitude=` | high; not executed | OpenMeteo.AsWrittenMetadataRejectsValidBodies, OpenMeteo.AsWrittenEveryFetchFails, Pipeline.AsWrittenRunAlwaysFails | OpenMeteo.BuildMetadata, OpenMeteo.CorrectedFetchSucceeds |

=== FILE: calendar.dfy ===
/** Proleptic Gregorian dates and times as Python's `datetime` represents them (years 1..9999),
    and the two fixed-width text forms the pipeline produces from them: the `full-date` of
    section 5.6 of RFC 3339 (`YYYY-MM-DD`, used in partition paths) and the compact
    `YYYYMMDDTHHMMSSZ` stamp of data file names. */
module Calendar {

  import opened Wrappers

  predicate IsLeapYear(y: int) {
    y % 4 == 0 && (y % 100 != 0 || y % 400 == 0)
  }

  function DaysInMonth(y: int, m: int): int
    requires 1 <= m <= 12
  {
    if m == 2 then (if IsLeapYear(y) then 29 else 28)
    else if m == 4 || m == 6 || m == 9 || m == 11 then 30
    else 31
  }

  datatype Date = Date(year: int, month: int, day: int) {
    /** The range Python's `date` accepts: MINYEAR 1 to MAXYEAR 9999 and a real day of the month. */
    predicate Valid() {
      1 <= year <= 9999 && 1 <= month <= 12 && 1 <= day <= DaysInMonth(year, month)
    }
  }

  type CivilDate = d: Date | d.Valid() witness Date(1970, 1, 1)
  type Hour = h: int | 0 <= h < 24
  type Sixty = n: int | 0 <= n < 60

  /** A wall-clock instant at one-second resolution; sub-second digits and the UTC offset are not modelled. */
  datatype DateTime = DateTime(date: CivilDate, hour: Hour, minute: Sixty, second: Sixty)

  predicate IsDigit(c: char) {
    '0' <= c <= '9'
  }

  predicate AllDigits(s: string) {
    forall i :: 0 <= i < |s| ==> IsDigit(s[i])
  }

  function DigitChar(d: int): (c: char)
    requires 0 <= d <= 9
    ensures IsDigit(c)
  {
    ('0' as int + d) as char
  }

  function DigitValue(c: char): int {
    c as int - '0' as int
  }

  /** Two zero-padded decimal digits, as `strftime`'s `%m`, `%d`, `%H`, `%M`, `%S` print them. */
  function Pad2(n: int): (s: string)
    requires 0 <= n < 100
    ensures |s| == 2 && AllDigits(s)
  {
    [DigitChar(n / 10), DigitChar(n % 10)]
  }

  /** Four zero-padded decimal digits, as `strftime`'s `%Y` prints a year. */
  function Pad4(n: int): (s: string)
    requires 0 <= n < 10000
    ensures |s| == 4 && AllDigits(s)
  {
    [DigitChar(n / 1000), DigitChar(n / 100 % 10), DigitChar(n / 10 % 10), DigitChar(n % 10)]
  }

  /** The number a string of two digits spells. */
  function Value2(s: string): int
    requires |s| == 2
  {
    DigitValue(s[0]) * 10 + DigitValue(s[1])
  }

  /** The number a string of four digits spells. */
  function Value4(s: string): int
    requires |s| == 4
  {
    DigitValue(s[0]) * 1000 + DigitValue(s[1]) * 100 + DigitValue(s[2]) * 10 + DigitValue(s[3])
  }

  lemma Pad2RoundTrip(n: int)
    requires 0 <= n < 100
    ensures Value2(Pad2(n)) == n
  {
  }

  lemma Pad4RoundTrip(n: int)
    requires 0 <= n < 10000
    ensures Value4(Pad4(n)) == n
  {
    var a, b, c, d := n / 1000, n / 100 % 10, n / 10 % 10, n % 10;
    var s := Pad4(n);
    assert DigitValue(s[0]) == a && DigitValue(s[1]) == b;
    assert DigitValue(s[2]) == c && DigitValue(s[3]) == d;
    assert n / 100 == a * 10 + b;
    assert n / 10 == (n / 100) * 10 + c;
    assert n == (n / 10) * 10 + d;
  }

  lemma Value2RoundTrip(s: string)
    requires |s| == 2 && AllDigits(s)
    ensures 0 <= Value2(s) < 100 && Pad2(Value2(s)) == s
  {
    assert IsDigit(s[0]) && IsDigit(s[1]);
    var v := Value2(s);
    assert v / 10 == DigitValue(s[0]);
    assert v % 10 == DigitValue(s[1]);
  }

  lemma Value4RoundTrip(s: string)
    requires |s| == 4 && AllDigits(s)
    ensures 0 <= Value4(s) < 10000 && Pad4(Value4(s)) == s
  {
    assert IsDigit(s[0]) && IsDigit(s[1]) && IsDigit(s[2]) && IsDigit(s[3]);
    var a, b, c, d := DigitValue(s[0]), DigitValue(s[1]), DigitValue(s[2]), DigitValue(s[3]);
    var v := Value4(s);
    assert v == a * 1000 + b * 100 + c * 10 + d;
    assert v / 1000 == a;
    assert v / 100 == a * 10 + b;
    assert v / 100 % 10 == b;
    assert v / 10 == a * 100 + b * 10 + c;
    assert v / 10 % 10 == c;
    assert v % 10 == d;
  }

  /** The RFC 3339 `full-date` of a date: `date-fullyear "-" date-month "-" date-mday`. */
  function FullDate(d: CivilDate): (s: string)
    ensures |s| == 10 && s[4] == '-' && s[7] == '-'
    ensures AllDigits(s[..4]) && AllDigits(s[5..7]) && AllDigits(s[8..])
  {
    Pad4(d.year) + "-" + Pad2(d.month) + "-" + Pad2(d.day)
  }

  /** Reads an RFC 3339 `full-date`; `None` for anything else, including a non-existent day. */
  function ParseFullDate(s: string): (r: Option<CivilDate>)
    ensures r.Some? ==> |s| == 10
  {
    if |s| == 10 && s[4] == '-' && s[7] == '-'
       && AllDigits(s[..4]) && AllDigits(s[5..7]) && AllDigits(s[8..])
    then
      var d := Date(Value4(s[..4]), Value2(s[5..7]), Value2(s[8..]));
      if d.Valid() then Some(d) else None
    else None
  }

  /** Reading back a printed date gives the date. */
  lemma FullDateRoundTrip(d: CivilDate)
    ensures ParseFullDate(FullDate(d)) == Some(d)
  {
    var s := FullDate(d);
    assert s[..4] == Pad4(d.year);
    assert s[5..7] == Pad2(d.month);
    assert s[8..] == Pad2(d.day);
    Pad4RoundTrip(d.year);
    Pad2RoundTrip(d.month);
    Pad2RoundTrip(d.day);
  }

  /** Every text the reader accepts is the printed form of what it read: the format is canonical. */
  lemma FullDateCanonical(s: string)
    requires ParseFullDate(s).Some?
    ensures FullDate(ParseFullDate(s).value) == s
  {
    Value4RoundTrip(s[..4]);
    Value2RoundTrip(s[5..7]);
    Value2RoundTrip(s[8..]);
    var t := FullDate(ParseFullDate(s).value);
    assert t == s[..4] + "-" + s[5..7] + "-" + s[8..];
    assert s == s[..4] + [s[4]] + s[5..7] + [s[7]] + s[8..];
  }

  /** Distinct dates print differently, so a partition's date segment identifies its day. */
  lemma FullDateInjective(d1: CivilDate, d2: CivilDate)
    requires FullDate(d1) == FullDate(d2)
    ensures d1 == d2
  {
    FullDateRoundTrip(d1);
    FullDateRoundTrip(d2);
  }

  /** `strftime("%Y%m%dT%H%M%SZ")`: the stamp a data file name carries. */
  function CompactStamp(t: DateTime): (s: string)
    ensures |s| == 16 && s[8] == 'T' && s[15] == 'Z'
    ensures s[..4] == Pad4(t.date.year) && s[4..6] == Pad2(t.date.month) && s[6..8] == Pad2(t.date.day)
    ensures s[9..11] == Pad2(t.hour) && s[11..13] == Pad2(t.minute) && s[13..15] == Pad2(t.second)
  {
    Pad4(t.date.year) + Pad2(t.date.month) + Pad2(t.date.day) + "T"
      + Pad2(t.hour) + Pad2(t.minute) + Pad2(t.second) + "Z"
  }

  /** Distinct instants (to the second) get distinct stamps: every field is read back from its slot. */
  lemma CompactStampInjective(t1: DateTime, t2: DateTime)
    requires CompactStamp(t1) == CompactStamp(t2)
    ensures t1 == t2
  {
    var s := CompactStamp(t1);
    Pad4RoundTrip(t1.date.year);
    Pad4RoundTrip(t2.date.year);
    Pad2RoundTrip(t1.date.month);
    Pad2RoundTrip(t2.date.month);
    Pad2RoundTrip(t1.date.day);
    Pad2RoundTrip(t2.date.day);
    Pad2RoundTrip(t1.hour);
    Pad2RoundTrip(t2.hour);
    Pad2RoundTrip(t1.minute);
    Pad2RoundTrip(t2.minute);
    Pad2RoundTrip(t1.second);
    Pad2RoundTrip(t2.second);
    assert t1.date == t2.date;
  }
}

=== FILE: client.dfy ===
/** The Open-Meteo client (weather_pipeline/clients/openmeteo.py): the query it builds, how one
    location's exchange becomes a result or an error, and the one-outcome-per-location shape of a
    batch. The HTTP exchange is the parameter `transport`; the clock reading taken for each
    location is a parameter too. Locations are fetched one after the other: the concurrency limit
    changes when requests are made, never what is returned or in which order. */
module OpenMeteo {

  import opened Wrappers
  import opened Calendar
  import opened Text
  import opened Schemas

  const DefaultBaseUrl := "https://api.open-meteo.com/v1/forecast"

  datatype Client = Client(
    baseUrl: string,
    timeout: int,
    maxConcurrentRequests: int,
    hourlyParams: Option<seq<string>>,
    dailyParams: Option<seq<string>>,
    forecastDays: int,
    timezone: string)

  /** `OpenMeteoClient()` with every argument left at its default. */
  function DefaultClient(): (c: Client)
    ensures c.baseUrl == DefaultBaseUrl && c.timeout == 10 && c.maxConcurrentRequests == 5
    ensures c.hourlyParams == None && c.dailyParams == None
    ensures c.forecastDays == 7 && c.timezone == "UTC"
  {
    Client(DefaultBaseUrl, 10, 5, None, None, 7, "UTC")
  }

  /** A query-string value as handed to the HTTP library. */
  datatype ParamValue = Coordinate(r: real) | Count(n: int) | Text(t: string)

  type Query = map<string, ParamValue>

  /** Python truthiness of an optional list: present and non-empty. */
  predicate Requested(params: Option<seq<string>>) {
    params.Some? && |params.value| > 0
  }

  /** `_build_params(location)`. */
  function BuildParams(c: Client, loc: Location): (q: Query)
    ensures "latitude" in q && q["latitude"] == Coordinate(loc.latitude)
    ensures "longitude" in q && q["longitude"] == Coordinate(loc.longitude)
    ensures "forecast_days" in q && q["forecast_days"] == Count(c.forecastDays)
    ensures "timezone" in q && q["timezone"] == Text(c.timezone)
    ensures "hourly" in q <==> Requested(c.hourlyParams)
    ensures "hourly" in q ==> q["hourly"] == Text(Join(c.hourlyParams.value, ','))
    ensures "daily" in q <==> Requested(c.dailyParams)
    ensures "daily" in q ==> q["daily"] == Text(Join(c.dailyParams.value, ','))
    ensures q.Keys <= {"latitude", "longitude", "forecast_days", "timezone", "hourly", "daily"}
  {
    var q := map["latitude" := Coordinate(loc.latitude),
                 "longitude" := Coordinate(loc.longitude),
                 "forecast_days" := Count(c.forecastDays),
                 "timezone" := Text(c.timezone)];
    var q := if Requested(c.hourlyParams) then q["hourly" := Text(Join(c.hourlyParams.value, ','))] else q;
    if Requested(c.dailyParams) then q["daily" := Text(Join(c.dailyParams.value, ','))] else q
  }

  /** The server reads back exactly the variables asked for, in order, as long as no variable
      name contains a comma. */
  lemma HourlyParamsRoundTrip(c: Client, loc: Location)
    requires Requested(c.hourlyParams)
    requires forall k :: 0 <= k < |c.hourlyParams.value| ==> Free(c.hourlyParams.value[k], ',')
    ensures Split(BuildParams(c, loc)["hourly"].t, ',') == c.hourlyParams.value
  {
    SplitJoin(c.hourlyParams.value, ',');
  }

  lemma DailyParamsRoundTrip(c: Client, loc: Location)
    requires Requested(c.dailyParams)
    requires forall k :: 0 <= k < |c.dailyParams.value| ==> Free(c.dailyParams.value[k], ',')
    ensures Split(BuildParams(c, loc)["daily"].t, ',') == c.dailyParams.value
  {
    SplitJoin(c.dailyParams.value, ',');
  }

  /** What the HTTP exchange gives back: the final URL, the elapsed time, the status, and the body
      as `response.json()` decodes it (or the message of the decoding exception). */
  datatype Response = Response(url: string, elapsedMs: real, statusCode: int, body: Result<Payload, string>)

  /** The HTTP exchange: a response, or the message of the exception the HTTP library raised. */
  type Transport = (Location, Query) -> Result<Response, string>

  /** Building the two metadata records from a decoded body and its response. */
  type MetadataBuilder = (Payload, Response, DateTime) -> Result<(IngestionMetadata, ApiMetadata), string>

  /** `raw_data.get(key)`. */
  function Get(p: Payload, key: string): Option<Scalar> {
    if key in p.fields then Some(p.fields[key]) else None
  }

  /** Python truthiness of a JSON scalar. */
  predicate Truthy(v: Option<Scalar>) {
    match v
    case None => false
    case Some(Null) => false
    case Some(Bool(b)) => b
    case Some(Num(x, _)) => x != 0.0
    case Some(Str(s)) => s != ""
  }

  /** Python's `str()` of what `raw_data.get(key)` returned. */
  function StrOf(v: Option<Scalar>): (s: string)
    ensures v.Some? && v.value.Str? ==> s == v.value.s
    ensures v.None? || v == Some(Null) ==> s == "None"
  {
    match v
    case None => "None"
    case Some(Null) => "None"
    case Some(Bool(b)) => if b then "True" else "False"
    case Some(Num(_, repr)) => repr
    case Some(Str(s)) => s
  }

  /** The message of the `ValueError` raised for a payload that reports an API error. */
  function ApiErrorMessage(p: Payload): (m: string)
    ensures |m| >= 11 && m[..11] == "API Error: " && m[11..] == StrOf(Get(p, "reason"))
  {
    "API Error: " + StrOf(Get(p, "reason"))
  }

  /** `str(KeyError(key))`: the key between single quotes. */
  function KeyErrorMessage(key: string): (m: string)
    ensures |m| == |key| + 2 && m[0] == '\'' && m[|m| - 1] == '\'' && m[1..|m| - 1] == key
  {
    "'" + key + "'"
  }

  /** The message of a model validation failure; pydantic's full report is abbreviated to the
      model's name. */
  function ValidationMessage(model: string): string {
    "validation error for " + model
  }

  /** A value a `float` field takes. */
  predicate IsFloat(v: Option<Scalar>) {
    v.Some? && v.value.Num?
  }

  /** A value an `int` field takes: a number without a fractional part. */
  predicate IsInt(v: Option<Scalar>) {
    v.Some? && v.value.Num? && v.value.value == v.value.value.Floor as real
  }

  /** The API metadata fields of a body all have the types `APIMetadata` declares. */
  predicate ApiFieldsValid(p: Payload) {
    && IsFloat(Get(p, "latitude")) && IsFloat(Get(p, "longitude"))
    && IsFloat(Get(p, "elevation")) && IsFloat(Get(p, "generationtime_ms"))
    && Get(p, "timezone").Some? && Get(p, "timezone").value.Str?
    && IsInt(Get(p, "utc_offset_seconds"))
  }

  /** The metadata step of `_fetch_single` with each value passed under the field name the
      schema declares (`ingestion_timestamp_utc=`, `api_latitude=`, `api_longitude=`). The
      client-side record always validates; the subscript of `utc_offset_seconds` raises a
      `KeyError` before the API record is built; the API record validates only when every field
      has its declared type. */
  function BuildMetadata(p: Payload, resp: Response, now: DateTime): (r: Result<(IngestionMetadata, ApiMetadata), string>)
    ensures "utc_offset_seconds" !in p.fields ==> r == Err(KeyErrorMessage("utc_offset_seconds"))
    ensures "utc_offset_seconds" in p.fields ==> (r.Ok? <==> ApiFieldsValid(p))
    ensures "utc_offset_seconds" in p.fields && !ApiFieldsValid(p) ==> r == Err(ValidationMessage("APIMetadata"))
    ensures r.Ok? ==>
              && r.value.0 == IngestionMetadata(now, resp.url, resp.elapsedMs, resp.statusCode)
              && r.value.1.apiLatitude == p.fields["latitude"].value
              && r.value.1.apiLongitude == p.fields["longitude"].value
              && r.value.1.elevation == p.fields["elevation"].value
              && r.value.1.generationtimeMs == p.fields["generationtime_ms"].value
              && r.value.1.timezone == p.fields["timezone"].s
              && r.value.1.utcOffsetSeconds as real == p.fields["utc_offset_seconds"].value
  {
    var ingestion := IngestionMetadata(now, resp.url, resp.elapsedMs, resp.statusCode);
    if "utc_offset_seconds" !in p.fields then Err(KeyErrorMessage("utc_offset_seconds"))
    else if !ApiFieldsValid(p) then Err(ValidationMessage("APIMetadata"))
    else
      Ok((ingestion, ApiMetadata(
        p.fields["latitude"].value,
        p.fields["longitude"].value,
        p.fields["elevation"].value,
        p.fields["generationtime_ms"].value,
        p.fields["timezone"].s,
        p.fields["utc_offset_seconds"].value.Floor)))
  }

  /** The metadata step of `_fetch_single` as the source writes it: `IngestionMetadata` receives
      `timestamp=` where the schema declares `ingestion_timestamp_utc`. Unknown keywords are
      ignored and the required field is missing, so validation fails for every body, before the
      API record is even attempted. */
  function BuildMetadataAsWritten(p: Payload, resp: Response, now: DateTime): Result<(IngestionMetadata, ApiMetadata), string> {
    // Supplied: timestamp (ignored), request_url, elapsed_ms, status_code; ingestion_timestamp_utc is missing.
    Err(ValidationMessage("IngestionMetadata"))
  }

  /** The metadata step as written rejects exactly the bodies the corrected step accepts. */
  lemma AsWrittenMetadataRejectsValidBodies(p: Payload, resp: Response, now: DateTime)
    requires "utc_offset_seconds" in p.fields && ApiFieldsValid(p)
    ensures BuildMetadata(p, resp, now).Ok?
    ensures BuildMetadataAsWritten(p, resp, now) == Err(ValidationMessage("IngestionMetadata"))
  {
  }

  /** `_fetch_with_semaphore(location)`: `_fetch_single` with every exception turned into a
      `FetchError` for the location. */
  function FetchWith(c: Client, loc: Location, now: DateTime, transport: Transport, build: MetadataBuilder): (o: FetchOutcome)
    ensures o.LocationOf() == loc
    ensures o.Failed? ==> o.failure == NewFetchError(loc, o.failure.error)
    ensures transport(loc, BuildParams(c, loc)).Err? ==>
              o == Failed(NewFetchError(loc, transport(loc, BuildParams(c, loc)).error))
    ensures o.Fetched? <==>
              && transport(loc, BuildParams(c, loc)).Ok?
              && transport(loc, BuildParams(c, loc)).value.body.Ok?
              && !Truthy(Get(transport(loc, BuildParams(c, loc)).value.body.value, "error"))
              && build(transport(loc, BuildParams(c, loc)).value.body.value,
                       transport(loc, BuildParams(c, loc)).value, now).Ok?
    ensures o.Fetched? ==>
              var resp := transport(loc, BuildParams(c, loc)).value;
              var (im, am) := build(resp.body.value, resp, now).value;
              o.result == FetchResult(resp.body.value, loc, im, am)
  {
    match transport(loc, BuildParams(c, loc))
    case Err(message) => Failed(NewFetchError(loc, message))
    case Ok(resp) =>
      match resp.body
      case Err(message) => Failed(NewFetchError(loc, message))
      case Ok(p) =>
        if Truthy(Get(p, "error")) then Failed(NewFetchError(loc, ApiErrorMessage(p)))
        else
          match build(p, resp, now)
          case Err(message) => Failed(NewFetchError(loc, message))
          case Ok((im, am)) => Fetched(FetchResult(p, loc, im, am))
  }

  /** A body reporting an API error becomes an error carrying "API Error: " and the reason. */
  lemma ApiErrorReported(c: Client, loc: Location, now: DateTime, transport: Transport, build: MetadataBuilder)
    requires transport(loc, BuildParams(c, loc)).Ok?
    requires transport(loc, BuildParams(c, loc)).value.body.Ok?
    requires Truthy(Get(transport(loc, BuildParams(c, loc)).value.body.value, "error"))
    ensures FetchWith(c, loc, now, transport, build) ==
              Failed(NewFetchError(loc, ApiErrorMessage(transport(loc, BuildParams(c, loc)).value.body.value)))
  {
  }

  /** `fetch_data(locations)` with a given metadata step: one outcome per location, in the
      order given; location `i` is fetched at `clock(i)`. Nothing is raised. */
  function FetchAllWith(c: Client, locs: seq<Location>, clock: nat -> DateTime, transport: Transport, build: MetadataBuilder)
    : (os: seq<FetchOutcome>)
    ensures |os| == |locs|
    ensures forall i :: 0 <= i < |locs| ==> os[i] == FetchWith(c, locs[i], clock(i), transport, build)
    ensures forall i :: 0 <= i < |locs| ==> os[i].LocationOf() == locs[i]
  {
    var os := seq(|locs|, i requires 0 <= i < |locs| => FetchWith(c, locs[i], clock(i), transport, build));
    assert forall i :: 0 <= i < |locs| ==> os[i] == FetchWith(c, locs[i], clock(i), transport, build);
    os
  }

  /** `fetch_data(locations)` with the metadata step corrected. */
  function FetchData(c: Client, locs: seq<Location>, clock: nat -> DateTime, transport: Transport): (os: seq<FetchOutcome>)
    ensures |os| == |locs|
    ensures forall i :: 0 <= i < |locs| ==> os[i].LocationOf() == locs[i]
  {
    FetchAllWith(c, locs, clock, transport, BuildMetadata)
  }

  /** `fetch_data(locations)` exactly as written. */
  function FetchDataAsWritten(c: Client, locs: seq<Location>, clock: nat -> DateTime, transport: Transport): (os: seq<FetchOutcome>)
    ensures |os| == |locs|
    ensures forall i :: 0 <= i < |locs| ==> os[i].LocationOf() == locs[i]
  {
    FetchAllWith(c, locs, clock, transport, BuildMetadataAsWritten)
  }

  /** As written, no fetch ever succeeds, whatever the server answers. */
  lemma AsWrittenEveryFetchFails(c: Client, locs: seq<Location>, clock: nat -> DateTime, transport: Transport)
    ensures forall i :: 0 <= i < |locs| ==> FetchDataAsWritten(c, locs, clock, transport)[i].Failed?
  {
  }

  /** With the metadata step corrected, a well-formed answer is a result that carries the body
      and the location unchanged and is stamped with the fetch's clock reading. */
  lemma CorrectedFetchSucceeds(c: Client, loc: Location, now: DateTime, transport: Transport)
    requires transport(loc, BuildParams(c, loc)).Ok?
    requires transport(loc, BuildParams(c, loc)).value.body.Ok?
    requires !Truthy(Get(transport(loc, BuildParams(c, loc)).value.body.value, "error"))
    requires "utc_offset_seconds" in transport(loc, BuildParams(c, loc)).value.body.value.fields
    requires ApiFieldsValid(transport(loc, BuildParams(c, loc)).value.body.value)
    ensures var o := FetchWith(c, loc, now, transport, BuildMetadata);
            var resp := transport(loc, BuildParams(c, loc)).value;
            && o.Fetched?
            && o.result.data == resp.body.value
            && o.result.location == loc
            && o.result.ingestionMetadata.ingestionTimestampUtc == now
            && o.result.ingestionMetadata.requestUrl == resp.url
            && o.result.ingestionMetadata.statusCode == resp.statusCode
  {
  }
}

=== FILE: config.dfy ===
/** Configuration handling (weather_pipeline/config_handler/load_configs.py): YAML documents,
    the recursive merge of an override document into the defaults, and the typed configuration
    the merged document must validate against. Reading the files is left to the caller: a
    document arrives already parsed. */
module Config {

  import opened Wrappers
  import opened Schemas

  /** A parsed YAML value. A mapping keeps its keys in insertion order, as a Python dict does. */
  datatype Yaml = Leaf(v: Scalar) | YList(items: seq<Yaml>) | YMap(entries: seq<Entry>)
  datatype Entry = Entry(key: string, value: Yaml)

  /** `d.get(key)`. */
  function Lookup(es: seq<Entry>, key: string): (r: Option<Yaml>)
    ensures r.Some? <==> exists i :: 0 <= i < |es| && es[i].key == key
  {
    if es == [] then None
    else if es[0].key == key then Some(es[0].value)
    else
      var r := Lookup(es[1..], key);
      assert forall i :: 0 < i < |es| ==> es[i] == es[1..][i - 1];
      r
  }

  /** Keys of a mapping: a Python dict never repeats one. */
  predicate UniqueKeys(es: seq<Entry>) {
    forall i, j :: 0 <= i < j < |es| ==> es[i].key != es[j].key
  }

  /** The keys of a mapping. */
  function KeySet(es: seq<Entry>): set<string> {
    set i | 0 <= i < |es| :: es[i].key
  }

  lemma UniqueTail(es: seq<Entry>)
    requires es != [] && UniqueKeys(es)
    ensures UniqueKeys(es[1..]) && es[0].key !in KeySet(es[1..])
  {
    forall i, j | 0 <= i < j < |es[1..]| ensures es[1..][i].key != es[1..][j].key {
      assert es[1..][i] == es[i + 1] && es[1..][j] == es[j + 1];
    }
    forall i | 0 <= i < |es[1..]| ensures es[1..][i].key != es[0].key {
      assert es[1..][i] == es[i + 1];
    }
  }

  lemma ConsUnique(x: Entry, rest: seq<Entry>)
    requires UniqueKeys(rest) && x.key !in KeySet(rest)
    ensures UniqueKeys([x] + rest)
  {
    var r := [x] + rest;
    forall i, j | 0 <= i < j < |r| ensures r[i].key != r[j].key {
      assert r[j] == rest[j - 1];
      assert r[j].key in KeySet(rest);
      if i > 0 { assert r[i] == rest[i - 1]; }
    }
  }

  lemma ConsLookup(x: Entry, rest: seq<Entry>)
    ensures Lookup([x] + rest, x.key) == Some(x.value)
    ensures forall k :: k != x.key ==> Lookup([x] + rest, k) == Lookup(rest, k)
  {
    assert ([x] + rest)[1..] == rest;
  }

  lemma ConsKeySet(x: Entry, rest: seq<Entry>)
    ensures KeySet([x] + rest) == {x.key} + KeySet(rest)
  {
    var r := [x] + rest;
    forall k | k in KeySet(r) ensures k in {x.key} + KeySet(rest) {
      var i :| 0 <= i < |r| && r[i].key == k;
      if i > 0 { assert rest[i - 1] == r[i]; }
    }
    forall k | k in KeySet(rest) ensures k in KeySet(r) {
      var i :| 0 <= i < |rest| && rest[i].key == k;
      assert r[i + 1] == rest[i];
    }
    assert r[0].key == x.key;
  }

  /** `d[key] = value`: an existing key keeps its place, a new key goes last. */
  function Put(es: seq<Entry>, key: string, value: Yaml): (r: seq<Entry>)
    ensures Lookup(r, key) == Some(value)
    ensures forall k :: k != key ==> Lookup(r, k) == Lookup(es, k)
    ensures KeySet(r) == KeySet(es) + {key}
    ensures UniqueKeys(es) ==> UniqueKeys(r)
  {
    if es == [] then
      ConsKeySet(Entry(key, value), []);
      [Entry(key, value)]
    else
      var x := es[0];
      assert es == [x] + es[1..];
      ConsLookup(x, es[1..]);
      ConsKeySet(x, es[1..]);
      if x.key == key then
        var r := [Entry(key, value)] + es[1..];
        ConsLookup(Entry(key, value), es[1..]);
        ConsKeySet(Entry(key, value), es[1..]);
        assert UniqueKeys(es) ==> UniqueKeys(r) by {
          if UniqueKeys(es) {
            UniqueTail(es);
            ConsUnique(Entry(key, value), es[1..]);
          }
        }
        r
      else
        var rest := Put(es[1..], key, value);
        var r := [x] + rest;
        ConsLookup(x, rest);
        ConsKeySet(x, rest);
        assert UniqueKeys(es) ==> UniqueKeys(r) by {
          if UniqueKeys(es) {
            UniqueTail(es);
            ConsUnique(x, rest);
          }
        }
        r
  }

  /** The value an override entry leaves under its key: the recursive merge when both sides are
      mappings, otherwise the override value itself. */
  function MergedValue(existing: Option<Yaml>, incoming: Yaml): Yaml {
    if existing.Some? && existing.value.YMap? && incoming.YMap? then
      YMap(DeepMerge(existing.value.entries, incoming.entries))
    else incoming
  }

  /** `_deep_merge(base, override)` with its `return` after the loop, where the test suite expects
      it: every override entry is applied in turn to a copy of `base`. */
  function DeepMerge(base: seq<Entry>, override: seq<Entry>): (r: seq<Entry>)
    decreases override
  {
    if override == [] then base
    else
      var e := override[0];
      var existing := Lookup(base, e.key);
      var v :=
        if existing.Some? && existing.value.YMap? && e.value.YMap? then
          YMap(DeepMerge(existing.value.entries, e.value.entries))
        else e.value;
      DeepMerge(Put(base, e.key, v), override[1..])
  }

  /** What the merge leaves under every key: override keys get the merged value, the rest keep
      their base value, and no key appears that neither side had. */
  lemma {:induction false} DeepMergeSpec(base: seq<Entry>, override: seq<Entry>)
    requires UniqueKeys(override)
    ensures forall k :: Lookup(override, k).None? ==> Lookup(DeepMerge(base, override), k) == Lookup(base, k)
    ensures forall k :: Lookup(override, k).Some? ==>
              Lookup(DeepMerge(base, override), k) == Some(MergedValue(Lookup(base, k), Lookup(override, k).value))
    decreases override
  {
    if override != [] {
      var e := override[0];
      var rest := override[1..];
      var b1 := Put(base, e.key, MergedValue(Lookup(base, e.key), e.value));
      UniqueTail(override);
      DeepMergeSpec(b1, rest);
      assert Lookup(rest, e.key).None? by {
        forall i | 0 <= i < |rest|
          ensures rest[i].key != e.key
        {
          assert rest[i] == override[i + 1];
        }
      }
    }
  }

  /** The merge of a mapping keeps every key once. */
  lemma {:induction false} DeepMergeUnique(base: seq<Entry>, override: seq<Entry>)
    requires UniqueKeys(base)
    ensures UniqueKeys(DeepMerge(base, override))
    decreases override
  {
    if override != [] {
      var e := override[0];
      DeepMergeUnique(Put(base, e.key, MergedValue(Lookup(base, e.key), e.value)), override[1..]);
    }
  }

  /** An empty override leaves the base as it is. */
  lemma DeepMergeEmptyOverride(base: seq<Entry>)
    ensures DeepMerge(base, []) == base
  {
  }

  /** The merge never drops a key and never invents one. */
  lemma {:induction false} DeepMergeKeys(base: seq<Entry>, override: seq<Entry>, k: string)
    requires UniqueKeys(override)
    ensures Lookup(DeepMerge(base, override), k).Some? <==> Lookup(base, k).Some? || Lookup(override, k).Some?
  {
    DeepMergeSpec(base, override);
  }

  /** `_deep_merge(base, override)` as the source writes it: the `return` sits inside the loop, so
      the first override entry is applied and the function returns; an empty override never
      enters the loop and returns `None`. A nested merge that returns `None` stores `None`. */
  function DeepMergeAsWritten(base: seq<Entry>, override: seq<Entry>): (r: Option<seq<Entry>>)
    ensures override == [] <==> r.None?
    ensures r.Some? ==> forall k :: k != override[0].key ==> Lookup(r.value, k) == Lookup(base, k)
    ensures r.Some? ==> KeySet(r.value) == KeySet(base) + {override[0].key}
    ensures r.Some? && UniqueKeys(base) ==> UniqueKeys(r.value)
    ensures r.Some? && !(Lookup(base, override[0].key).Some? && Lookup(base, override[0].key).value.YMap?
                         && override[0].value.YMap?) ==>
              Lookup(r.value, override[0].key) == Some(override[0].value)
    ensures r.Some? && Lookup(base, override[0].key).Some? && Lookup(base, override[0].key).value.YMap?
                    && override[0].value.YMap? ==>
              var nested := DeepMergeAsWritten(Lookup(base, override[0].key).value.entries, override[0].value.entries);
              Lookup(r.value, override[0].key) == Some(if nested.None? then Leaf(Null) else YMap(nested.value))
    decreases override
  {
    if override == [] then None
    else
      var e := override[0];
      var existing := Lookup(base, e.key);
      var v :=
        if existing.Some? && existing.value.YMap? && e.value.YMap? then
          match DeepMergeAsWritten(existing.value.entries, e.value.entries)
          case None => Leaf(Null)
          case Some(es) => YMap(es)
        else e.value;
      Some(Put(base, e.key, v))
  }

  /** The `api` section of the precedence test's default document. */
  function TestDefaultApi(): seq<Entry> {
    [Entry("provider", Leaf(Str("open_meteo"))),
     Entry("base_url", Leaf(Str("https://api.open-meteo.com/v1/forecast"))),
     Entry("timeout_seconds", Leaf(Num(30.0, "30"))),
     Entry("max_retries", Leaf(Num(3.0, "3")))]
  }

  /** The `api` section of the precedence test's API-specific document. */
  function TestOverrideApi(): seq<Entry> {
    [Entry("provider", Leaf(Str("open_meteo"))),
     Entry("base_url", Leaf(Str("https://api.open-meteo.com/v1/forecast"))),
     Entry("timeout_seconds", Leaf(Num(60.0, "60")))]
  }

  /** The default document of the precedence test. */
  function TestDefaults(): seq<Entry> {
    [Entry("api", YMap(TestDefaultApi())),
     Entry("interval", Leaf(Str("daily"))),
     Entry("forecast_days", Leaf(Num(7.0, "7"))),
     Entry("storage", YMap([
        Entry("backend", Leaf(Str("local"))),
        Entry("compression", Leaf(Str("snappy")))]))]
  }

  /** The API-specific document of the precedence test. */
  function TestOverride(): seq<Entry> {
    [Entry("api", YMap(TestOverrideApi())),
     Entry("interval", Leaf(Str("hourly"))),
     Entry("forecast_days", Leaf(Num(14.0, "14"))),
     Entry("locations", YList([
        YMap([Entry("name", Leaf(Str("London"))),
              Entry("latitude", Leaf(Num(51.5074, "51.5074"))),
              Entry("longitude", Leaf(Num(-0.1278, "-0.1278")))]),
        YMap([Entry("name", Leaf(Str("Tokyo"))),
              Entry("latitude", Leaf(Num(35.6762, "35.6762"))),
              Entry("longitude", Leaf(Num(139.6503, "139.6503")))])]))]
  }

  /** As written, the precedence test's override loses everything after its first key: the
      interval stays "daily", the forecast stays 7 days and no locations arrive. */
  lemma AsWrittenIgnoresLaterKeys()
    ensures var r := DeepMergeAsWritten(TestDefaults(), TestOverride());
            && r.Some?
            && Lookup(r.value, "interval") == Some(Leaf(Str("daily")))
            && Lookup(r.value, "forecast_days") == Some(Leaf(Num(7.0, "7")))
            && Lookup(r.value, "locations") == None
  {
    var d := TestDefaults();
    assert Lookup(d, "interval") == Some(Leaf(Str("daily")));
    assert Lookup(d, "forecast_days") == Some(Leaf(Num(7.0, "7")));
    assert Lookup(d, "locations") == None;
  }

  /** As written, an empty override yields `None` where the empty-override test expects the base. */
  lemma AsWrittenEmptyOverrideIsNone(base: seq<Entry>)
    ensures DeepMergeAsWritten(base, []) == None
    ensures DeepMerge(base, []) == base
  {
  }

  lemma TestOverrideUnique()
    ensures UniqueKeys(TestOverride())
    ensures UniqueKeys(TestOverrideApi())
  {
    var o := TestOverride();
    assert o[0].key == "api" && o[1].key == "interval" && o[2].key == "forecast_days" && o[3].key == "locations";
    var api := TestOverrideApi();
    assert api[0].key == "provider" && api[1].key == "base_url" && api[2].key == "timeout_seconds";
  }

  /** A key the override does not mention keeps its base value. */
  lemma MergeKeepsBase(base: seq<Entry>, override: seq<Entry>, k: string)
    requires UniqueKeys(override) && Lookup(override, k).None?
    ensures Lookup(DeepMerge(base, override), k) == Lookup(base, k)
  {
    DeepMergeSpec(base, override);
  }

  /** A key the override mentions takes the override's value, merged into the base value when
      both are mappings. */
  lemma MergeTakesOverride(base: seq<Entry>, override: seq<Entry>, k: string)
    requires UniqueKeys(override) && Lookup(override, k).Some?
    ensures Lookup(DeepMerge(base, override), k) == Some(MergedValue(Lookup(base, k), Lookup(override, k).value))
  {
    DeepMergeSpec(base, override);
  }

  /** An override value that is not a mapping replaces whatever the base had. */
  lemma MergeReplaces(base: seq<Entry>, override: seq<Entry>, k: string, v: Yaml)
    requires UniqueKeys(override) && Lookup(override, k) == Some(v) && !v.YMap?
    ensures Lookup(DeepMerge(base, override), k) == Some(v)
  {
    MergeTakesOverride(base, override, k);
  }

  /** Two mappings under one key are merged recursively. */
  lemma MergeRecurses(base: seq<Entry>, override: seq<Entry>, k: string, b: seq<Entry>, o: seq<Entry>)
    requires UniqueKeys(override) && Lookup(override, k) == Some(YMap(o)) && Lookup(base, k) == Some(YMap(b))
    ensures Lookup(DeepMerge(base, override), k) == Some(YMap(DeepMerge(b, o)))
  {
    MergeTakesOverride(base, override, k);
  }

  // One fact of the precedence test per lemma: the merge of the two test documents is costly to
  // reason about all at once.

  lemma PrecedenceInterval()
    ensures Lookup(DeepMerge(TestDefaults(), TestOverride()), "interval") == Some(Leaf(Str("hourly")))
  {
    TestOverrideUnique();
    MergeReplaces(TestDefaults(), TestOverride(), "interval", Leaf(Str("hourly")));
  }

  lemma PrecedenceForecastDays()
    ensures Lookup(DeepMerge(TestDefaults(), TestOverride()), "forecast_days") == Some(Leaf(Num(14.0, "14")))
  {
    TestOverrideUnique();
    MergeReplaces(TestDefaults(), TestOverride(), "forecast_days", Leaf(Num(14.0, "14")));
  }

  lemma PrecedenceLocations()
    ensures Lookup(DeepMerge(TestDefaults(), TestOverride()), "locations") == Lookup(TestOverride(), "locations")
  {
    TestOverrideUnique();
    MergeReplaces(TestDefaults(), TestOverride(), "locations", TestOverride()[3].value);
  }

  lemma PrecedenceStorage()
    ensures Lookup(DeepMerge(TestDefaults(), TestOverride()), "storage") == Lookup(TestDefaults(), "storage")
  {
    TestOverrideUnique();
    assert Lookup(TestOverride(), "storage") == None;
    MergeKeepsBase(TestDefaults(), TestOverride(), "storage");
  }

  /** In the precedence test both documents have an `api` mapping, so the two are merged. */
  lemma PrecedenceApi()
    ensures Lookup(DeepMerge(TestDefaults(), TestOverride()), "api") ==
              Some(YMap(DeepMerge(TestDefaultApi(), TestOverrideApi())))
  {
    TestOverrideUnique();
    MergeRecurses(TestDefaults(), TestOverride(), "api", TestDefaultApi(), TestOverrideApi());
  }

  /** Inside the `api` section of the precedence test the override's timeout wins. */
  lemma PrecedenceApiTimeout()
    ensures Lookup(DeepMerge(TestDefaultApi(), TestOverrideApi()), "timeout_seconds") == Some(Leaf(Num(60.0, "60")))
  {
    var oApi := TestOverrideApi();
    TestOverrideUnique();
    assert Lookup(oApi, "timeout_seconds") == Some(Leaf(Num(60.0, "60"))) by {
      assert oApi[0].key != "timeout_seconds" && oApi[1].key != "timeout_seconds";
      assert oApi[2] == Entry("timeout_seconds", Leaf(Num(60.0, "60")));
    }
    MergeReplaces(TestDefaultApi(), oApi, "timeout_seconds", Leaf(Num(60.0, "60")));
  }

  /** Inside the `api` section of the precedence test the default-only `max_retries` survives. */
  lemma PrecedenceApiRetries()
    ensures Lookup(DeepMerge(TestDefaultApi(), TestOverrideApi()), "max_retries") == Some(Leaf(Num(3.0, "3")))
  {
    var dApi := TestDefaultApi();
    var oApi := TestOverrideApi();
    TestOverrideUnique();
    assert Lookup(oApi, "max_retries") == None by {
      assert oApi[0].key != "max_retries" && oApi[1].key != "max_retries" && oApi[2].key != "max_retries";
    }
    assert Lookup(dApi, "max_retries") == Some(Leaf(Num(3.0, "3"))) by {
      assert dApi[0].key != "max_retries" && dApi[1].key != "max_retries" && dApi[2].key != "max_retries";
      assert dApi[3] == Entry("max_retries", Leaf(Num(3.0, "3")));
    }
    MergeKeepsBase(dApi, oApi, "max_retries");
  }

  /** The corrected merge passes the precedence test at the top level: overrides win, the
      untouched storage section survives and the new locations arrive. */
  lemma MergePrecedence()
    ensures var m := DeepMerge(TestDefaults(), TestOverride());
            && Lookup(m, "interval") == Some(Leaf(Str("hourly")))
            && Lookup(m, "forecast_days") == Some(Leaf(Num(14.0, "14")))
            && Lookup(m, "locations") == Lookup(TestOverride(), "locations")
            && Lookup(m, "storage") == Lookup(TestDefaults(), "storage")
  {
    PrecedenceInterval();
    PrecedenceForecastDays();
    PrecedenceLocations();
    PrecedenceStorage();
  }

  // ---------------------------------------------------------------------------------------
  // The typed configuration.

  datatype Interval = Hourly | Daily {
    function Name(): string {
      match this
      case Hourly => "hourly"
      case Daily => "daily"
    }
  }

  datatype ApiConfig = ApiConfig(baseUrl: string, timeoutSeconds: int, maxConcurrentRequests: int)
  datatype StorageConfig = StorageConfig(backend: string, basePath: string, compression: string)

  datatype PipelineConfig = PipelineConfig(
    api: ApiConfig,
    locations: seq<Location>,
    interval: Interval,
    hourlyParams: seq<string>,
    dailyParams: seq<string>,
    forecastDays: int,
    timezone: string,
    storage: StorageConfig)

  /** Validation failure: the offending field, or a document that is not a mapping. */
  datatype ConfigError = Invalid(field: string) | Missing(field: string)

  /** An `int` field: absent means the default; a number without a fractional part is taken. */
  function IntField(es: seq<Entry>, key: string, default: int): (r: Result<int, ConfigError>)
    ensures Lookup(es, key).None? ==> r == Ok(default)
    ensures Lookup(es, key).Some? ==>
              (r.Ok? <==> Lookup(es, key).value.Leaf? && Lookup(es, key).value.v.Num?
                          && Lookup(es, key).value.v.value == Lookup(es, key).value.v.value.Floor as real)
    ensures r.Ok? && Lookup(es, key).Some? ==> r.value as real == Lookup(es, key).value.v.value
    ensures r.Err? ==> r.error == Invalid(key)
  {
    match Lookup(es, key)
    case None => Ok(default)
    case Some(Leaf(Num(x, _))) => if x == x.Floor as real then Ok(x.Floor) else Err(Invalid(key))
    case Some(_) => Err(Invalid(key))
  }

  /** A `str` field: absent means the default; a string is taken. */
  function StrField(es: seq<Entry>, key: string, default: string): (r: Result<string, ConfigError>)
    ensures Lookup(es, key).None? ==> r == Ok(default)
    ensures Lookup(es, key).Some? ==>
              (r.Ok? <==> Lookup(es, key).value.Leaf? && Lookup(es, key).value.v.Str?)
    ensures r.Ok? && Lookup(es, key).Some? ==> r.value == Lookup(es, key).value.v.s
    ensures r.Err? ==> r.error == Invalid(key)
  {
    match Lookup(es, key)
    case None => Ok(default)
    case Some(Leaf(Str(s))) => Ok(s)
    case Some(_) => Err(Invalid(key))
  }

  /** The strings of a list, when every item is one. */
  function Strings(items: seq<Yaml>): (r: Option<seq<string>>)
    ensures r.Some? <==> forall i :: 0 <= i < |items| ==> items[i].Leaf? && items[i].v.Str?
    ensures r.Some? ==> |r.value| == |items| && forall i :: 0 <= i < |items| ==> r.value[i] == items[i].v.s
  {
    if items == [] then Some([])
    else if items[0].Leaf? && items[0].v.Str? then
      match Strings(items[1..])
      case None => None
      case Some(rest) => Some([items[0].v.s] + rest)
    else None
  }

  /** A `list[str]` field: absent means the empty list. */
  function StrListField(es: seq<Entry>, key: string): (r: Result<seq<string>, ConfigError>)
    ensures Lookup(es, key).None? ==> r == Ok([])
    ensures Lookup(es, key).Some? ==>
              (r.Ok? <==> Lookup(es, key).value.YList? && Strings(Lookup(es, key).value.items).Some?)
    ensures r.Err? ==> r.error == Invalid(key)
  {
    match Lookup(es, key)
    case None => Ok([])
    case Some(YList(items)) =>
      (match Strings(items)
       case None => Err(Invalid(key))
       case Some(ss) => Ok(ss))
    case Some(_) => Err(Invalid(key))
  }

  /** A `float` value. */
  function FloatOf(y: Yaml): Option<real> {
    if y.Leaf? && y.v.Num? then Some(y.v.value) else None
  }

  /** `Location(**item)`: a mapping with a string name and numeric coordinates. */
  function LocationOf(y: Yaml): Option<Location> {
    if !y.YMap? then None
    else
      match (Lookup(y.entries, "name"), Lookup(y.entries, "latitude"), Lookup(y.entries, "longitude"))
      case (Some(Leaf(Str(n))), Some(lat), Some(lon)) =>
        if FloatOf(lat).Some? && FloatOf(lon).Some? then Some(Location(n, FloatOf(lat).value, FloatOf(lon).value))
        else None
      case _ => None
  }

  /** A location item is accepted exactly when it is a mapping with a string `name` and numeric
      `latitude` and `longitude`, and the location carries those values. */
  lemma LocationOfSpec(y: Yaml)
    ensures LocationOf(y).Some? <==>
              && y.YMap?
              && Lookup(y.entries, "name").Some? && Lookup(y.entries, "name").value.Leaf?
              && Lookup(y.entries, "name").value.v.Str?
              && Lookup(y.entries, "latitude").Some? && FloatOf(Lookup(y.entries, "latitude").value).Some?
              && Lookup(y.entries, "longitude").Some? && FloatOf(Lookup(y.entries, "longitude").value).Some?
    ensures LocationOf(y).Some? ==>
              && Lookup(y.entries, "name") == Some(Leaf(Str(LocationOf(y).value.name)))
              && FloatOf(Lookup(y.entries, "latitude").value) == Some(LocationOf(y).value.latitude)
              && FloatOf(Lookup(y.entries, "longitude").value) == Some(LocationOf(y).value.longitude)
  {
  }

  /** The locations of a list, when every item is a valid location. */
  function Locations(items: seq<Yaml>): (r: Option<seq<Location>>)
    ensures r.Some? <==> forall i :: 0 <= i < |items| ==> LocationOf(items[i]).Some?
    ensures r.Some? ==> |r.value| == |items| && forall i :: 0 <= i < |items| ==> r.value[i] == LocationOf(items[i]).value
  {
    if items == [] then Some([])
    else
      var head := LocationOf(items[0]);
      var tail := Locations(items[1..]);
      assert forall i :: 0 < i < |items| ==> items[i] == items[1..][i - 1];
      if head.Some? && tail.Some? then Some([head.value] + tail.value) else None
  }

  /** `Literal["hourly", "daily"] = "hourly"`. */
  function IntervalField(es: seq<Entry>): (r: Result<Interval, ConfigError>)
    ensures Lookup(es, "interval").None? ==> r == Ok(Hourly)
    ensures Lookup(es, "interval").Some? ==>
              (r.Ok? <==> Lookup(es, "interval").value in {Leaf(Str("hourly")), Leaf(Str("daily"))})
    ensures r.Ok? && Lookup(es, "interval").Some? ==> Lookup(es, "interval").value == Leaf(Str(r.value.Name()))
    ensures r.Err? ==> r.error == Invalid("interval")
  {
    match Lookup(es, "interval")
    case None => Ok(Hourly)
    case Some(Leaf(Str(s))) =>
      if s == "hourly" then Ok(Hourly) else if s == "daily" then Ok(Daily) else Err(Invalid("interval"))
    case Some(_) => Err(Invalid("interval"))
  }

  /** A nested section (`api`, `storage`): absent means all its defaults; otherwise a mapping. */
  function Section(es: seq<Entry>, key: string): (r: Result<seq<Entry>, ConfigError>)
    ensures Lookup(es, key).None? ==> r == Ok([])
    ensures Lookup(es, key).Some? ==> (r.Ok? <==> Lookup(es, key).value.YMap?)
    ensures r.Ok? && Lookup(es, key).Some? ==> r.value == Lookup(es, key).value.entries
  {
    match Lookup(es, key)
    case None => Ok([])
    case Some(YMap(inner)) => Ok(inner)
    case Some(_) => Err(Invalid(key))
  }

  const DefaultApiBaseUrl := "https://api.open-meteo.com/v1/forecast"

  /** `APIConfig(**section)`. */
  function LoadApiConfig(es: seq<Entry>): (r: Result<ApiConfig, ConfigError>)
    ensures es == [] ==> r == Ok(ApiConfig(DefaultApiBaseUrl, 30, 5))
    ensures r.Ok? <==>
              && StrField(es, "base_url", DefaultApiBaseUrl).Ok?
              && IntField(es, "timeout_seconds", 30).Ok?
              && IntField(es, "max_concurrent_requests", 5).Ok?
    ensures r.Ok? ==>
              && StrField(es, "base_url", DefaultApiBaseUrl) == Ok(r.value.baseUrl)
              && IntField(es, "timeout_seconds", 30) == Ok(r.value.timeoutSeconds)
              && IntField(es, "max_concurrent_requests", 5) == Ok(r.value.maxConcurrentRequests)
    ensures r.Err? ==> r.error in {Invalid("base_url"), Invalid("timeout_seconds"), Invalid("max_concurrent_requests")}
  {
    var url :- StrField(es, "base_url", DefaultApiBaseUrl);
    var timeout :- IntField(es, "timeout_seconds", 30);
    var limit :- IntField(es, "max_concurrent_requests", 5);
    Ok(ApiConfig(url, timeout, limit))
  }

  /** `StorageConfig(**section)`. */
  function LoadStorageConfig(es: seq<Entry>): (r: Result<StorageConfig, ConfigError>)
    ensures es == [] ==> r == Ok(StorageConfig("local", "data/weather", "snappy"))
    ensures r.Ok? <==>
              && StrField(es, "backend", "local").Ok?
              && StrField(es, "base_path", "data/weather").Ok?
              && StrField(es, "compression", "snappy").Ok?
    ensures r.Ok? ==>
              && StrField(es, "backend", "local") == Ok(r.value.backend)
              && StrField(es, "base_path", "data/weather") == Ok(r.value.basePath)
              && StrField(es, "compression", "snappy") == Ok(r.value.compression)
    ensures r.Err? ==> r.error in {Invalid("backend"), Invalid("base_path"), Invalid("compression")}
  {
    var backend :- StrField(es, "backend", "local");
    var path :- StrField(es, "base_path", "data/weather");
    var compression :- StrField(es, "compression", "snappy");
    Ok(StorageConfig(backend, path, compression))
  }

  /** The `locations` entry is present and every item of it is a location. */
  predicate LocationsValid(doc: seq<Entry>) {
    && Lookup(doc, "locations").Some? && Lookup(doc, "locations").value.YList?
    && Locations(Lookup(doc, "locations").value.items).Some?
  }

  /** Both nested sections are mappings (or absent) whose fields validate. */
  predicate SectionsValid(doc: seq<Entry>) {
    && Section(doc, "api").Ok? && LoadApiConfig(Section(doc, "api").value).Ok?
    && Section(doc, "storage").Ok? && LoadStorageConfig(Section(doc, "storage").value).Ok?
  }

  /** Every top-level scalar and list field is absent or validates. */
  predicate FieldsValid(doc: seq<Entry>) {
    && IntervalField(doc).Ok?
    && StrListField(doc, "hourly_params").Ok? && StrListField(doc, "daily_params").Ok?
    && IntField(doc, "forecast_days", 7).Ok? && StrField(doc, "timezone", "UTC").Ok?
  }

  /** `PipelineConfig(**document)`: every declared field validated against its type and defaulted
      when absent; `locations` is required; undeclared keys are ignored. */
  function LoadConfig(doc: seq<Entry>): (r: Result<PipelineConfig, ConfigError>)
    ensures Lookup(doc, "locations").None? ==> r == Err(Missing("locations"))
    ensures r.Ok? ==> Lookup(doc, "locations").Some? && Lookup(doc, "locations").value.YList?
                      && Locations(Lookup(doc, "locations").value.items) == Some(r.value.locations)
    ensures r.Ok? ==> IntervalField(doc) == Ok(r.value.interval)
    ensures r.Ok? ==> IntField(doc, "forecast_days", 7) == Ok(r.value.forecastDays)
    ensures r.Ok? ==> StrField(doc, "timezone", "UTC") == Ok(r.value.timezone)
    ensures r.Ok? ==> StrListField(doc, "hourly_params") == Ok(r.value.hourlyParams)
    ensures r.Ok? ==> StrListField(doc, "daily_params") == Ok(r.value.dailyParams)
    ensures r.Ok? ==> Section(doc, "api").Ok? && LoadApiConfig(Section(doc, "api").value) == Ok(r.value.api)
    ensures r.Ok? ==> Section(doc, "storage").Ok? && LoadStorageConfig(Section(doc, "storage").value) == Ok(r.value.storage)
    ensures r.Ok? <==> LocationsValid(doc) && SectionsValid(doc) && FieldsValid(doc)
  {
    var locs :- match Lookup(doc, "locations")
      case None => Err(Missing("locations"))
      case Some(YList(items)) => (if Locations(items).Some? then Ok(Locations(items).value) else Err(Invalid("locations")))
      case Some(_) => Err(Invalid("locations"));
    var apiSection :- Section(doc, "api");
    var api :- LoadApiConfig(apiSection);
    var interval :- IntervalField(doc);
    var hourly :- StrListField(doc, "hourly_params");
    var daily :- StrListField(doc, "daily_params");
    var days :- IntField(doc, "forecast_days", 7);
    var tz :- StrField(doc, "timezone", "UTC");
    var storageSection :- Section(doc, "storage");
    var storage :- LoadStorageConfig(storageSection);
    Ok(PipelineConfig(api, locs, interval, hourly, daily, days, tz, storage))
  }

  /** A document naming only its locations validates to every documented default. */
  lemma LoadConfigDefaults(items: seq<Yaml>)
    requires Locations(items).Some?
    ensures var r := LoadConfig([Entry("locations", YList(items))]);
            && r.Ok?
            && r.value.locations == Locations(items).value
            && r.value.interval == Hourly
            && r.value.forecastDays == 7 && r.value.timezone == "UTC"
            && r.value.hourlyParams == [] && r.value.dailyParams == []
            && r.value.api == ApiConfig("https://api.open-meteo.com/v1/forecast", 30, 5)
            && r.value.storage == StorageConfig("local", "data/weather", "snappy")
  {
    var doc := [Entry("locations", YList(items))];
    assert Lookup(doc, "locations") == Some(YList(items));
    assert Lookup(doc, "api") == None && Lookup(doc, "storage") == None;
    assert Lookup(doc, "interval") == None && Lookup(doc, "forecast_days") == None;
    assert Lookup(doc, "timezone") == None;
    assert Lookup(doc, "hourly_params") == None && Lookup(doc, "daily_params") == None;
  }

  /** An interval other than "hourly" or "daily" is rejected. */
  lemma IntervalRestricted(doc: seq<Entry>, s: string)
    requires Lookup(doc, "interval") == Some(Leaf(Str(s)))
    requires s != "hourly" && s != "daily"
    ensures LoadConfig(doc).Err?
  {
  }

  /** `load_config_yml`: the defaults document, merged with the override document when one is
      given, validated. */
  function LoadConfigYml(defaults: seq<Entry>, override: Option<seq<Entry>>): Result<PipelineConfig, ConfigError> {
    match override
    case None => LoadConfig(defaults)
    case Some(o) => LoadConfig(DeepMerge(defaults, o))
  }

  lemma OverrideIntervalWins(defaults: seq<Entry>, override: seq<Entry>)
    requires UniqueKeys(override) && Lookup(override, "interval").Some? && Lookup(override, "interval").value.Leaf?
    ensures LoadConfigYml(defaults, Some(override)).Ok? ==>
              IntervalField(override) == Ok(LoadConfigYml(defaults, Some(override)).value.interval)
  {
    var merged := DeepMerge(defaults, override);
    MergeReplaces(defaults, override, "interval", Lookup(override, "interval").value);
    assert IntervalField(merged) == IntervalField(override);
  }

  lemma OverrideForecastDaysWins(defaults: seq<Entry>, override: seq<Entry>)
    requires UniqueKeys(override) && Lookup(override, "forecast_days").Some? && Lookup(override, "forecast_days").value.Leaf?
    ensures LoadConfigYml(defaults, Some(override)).Ok? ==>
              IntField(override, "forecast_days", 7) == Ok(LoadConfigYml(defaults, Some(override)).value.forecastDays)
  {
    var merged := DeepMerge(defaults, override);
    MergeReplaces(defaults, override, "forecast_days", Lookup(override, "forecast_days").value);
    assert IntField(merged, "forecast_days", 7) == IntField(override, "forecast_days", 7);
  }

  lemma OverrideTimezoneWins(defaults: seq<Entry>, override: seq<Entry>)
    requires UniqueKeys(override) && Lookup(override, "timezone").Some? && Lookup(override, "timezone").value.Leaf?
    ensures LoadConfigYml(defaults, Some(override)).Ok? ==>
              StrField(override, "timezone", "UTC") == Ok(LoadConfigYml(defaults, Some(override)).value.timezone)
  {
    var merged := DeepMerge(defaults, override);
    MergeReplaces(defaults, override, "timezone", Lookup(override, "timezone").value);
    assert StrField(merged, "timezone", "UTC") == StrField(override, "timezone", "UTC");
  }

  /** The override's `api` section names the URL and the timeout but no concurrency limit. */
  lemma TestOverrideApiLookups()
    ensures Lookup(TestOverrideApi(), "base_url") == Some(Leaf(Str(DefaultApiBaseUrl)))
    ensures Lookup(TestOverrideApi(), "timeout_seconds") == Some(Leaf(Num(60.0, "60")))
    ensures Lookup(TestOverrideApi(), "max_concurrent_requests") == None
  {
    var oApi := TestOverrideApi();
    assert oApi[0].key != "base_url";
    assert oApi[1] == Entry("base_url", Leaf(Str(DefaultApiBaseUrl)));
    assert oApi[0].key != "timeout_seconds" && oApi[1].key != "timeout_seconds";
    assert oApi[2] == Entry("timeout_seconds", Leaf(Num(60.0, "60")));
    assert oApi[0].key != "max_concurrent_requests" && oApi[1].key != "max_concurrent_requests";
    assert oApi[2].key != "max_concurrent_requests";
  }

  lemma TestDefaultApiNoLimit()
    ensures Lookup(TestDefaultApi(), "max_concurrent_requests") == None
  {
    var dApi := TestDefaultApi();
    assert dApi[0].key != "max_concurrent_requests" && dApi[1].key != "max_concurrent_requests";
    assert dApi[2].key != "max_concurrent_requests" && dApi[3].key != "max_concurrent_requests";
  }

  /** An `api` override naming the URL and the timeout but, like its base, no concurrency limit. */
  lemma MergeApiFields(base: seq<Entry>, override: seq<Entry>, url: string, timeout: Yaml)
    requires UniqueKeys(override) && !timeout.YMap?
    requires Lookup(override, "base_url") == Some(Leaf(Str(url)))
    requires Lookup(override, "timeout_seconds") == Some(timeout)
    requires Lookup(override, "max_concurrent_requests") == None && Lookup(base, "max_concurrent_requests") == None
    ensures Lookup(DeepMerge(base, override), "base_url") == Some(Leaf(Str(url)))
    ensures Lookup(DeepMerge(base, override), "timeout_seconds") == Some(timeout)
    ensures Lookup(DeepMerge(base, override), "max_concurrent_requests") == None
  {
    MergeReplaces(base, override, "base_url", Leaf(Str(url)));
    MergeReplaces(base, override, "timeout_seconds", timeout);
    MergeKeepsBase(base, override, "max_concurrent_requests");
  }

  /** The merged `api` section of the precedence test: the override's URL and timeout, and no
      concurrency limit, so the default 5 applies. */
  lemma PrecedenceApiFields()
    ensures var api := DeepMerge(TestDefaultApi(), TestOverrideApi());
            && Lookup(api, "base_url") == Some(Leaf(Str(DefaultApiBaseUrl)))
            && Lookup(api, "timeout_seconds") == Some(Leaf(Num(60.0, "60")))
            && Lookup(api, "max_concurrent_requests") == None
  {
    TestOverrideUnique();
    TestOverrideApiLookups();
    TestDefaultApiNoLimit();
    MergeApiFields(TestDefaultApi(), TestOverrideApi(), DefaultApiBaseUrl, Leaf(Num(60.0, "60")));
  }

  /** Locations of a two-item list. */
  lemma LocationsPair(a: Yaml, b: Yaml)
    requires LocationOf(a).Some? && LocationOf(b).Some?
    ensures Locations([a, b]) == Some([LocationOf(a).value, LocationOf(b).value])
  {
    var items := [a, b];
    assert forall i :: 0 <= i < |items| ==> LocationOf(items[i]).Some?;
    var locs := Locations(items).value;
    assert locs[0] == LocationOf(a).value && locs[1] == LocationOf(b).value;
    assert locs == [LocationOf(a).value, LocationOf(b).value];
  }

  /** The top-level lookups of the precedence test's override document. */
  lemma TestOverrideLookups()
    ensures Lookup(TestOverride(), "api") == Some(YMap(TestOverrideApi()))
    ensures Lookup(TestOverride(), "interval") == Some(Leaf(Str("hourly")))
    ensures Lookup(TestOverride(), "forecast_days") == Some(Leaf(Num(14.0, "14")))
    ensures Lookup(TestOverride(), "locations") == Some(TestOverride()[3].value) && TestOverride()[3].value.YList?
    ensures forall k :: k in {"storage", "timezone", "hourly_params", "daily_params"} ==> Lookup(TestOverride(), k) == None
  {
    var o := TestOverride();
    assert o[0].key == "api" && o[1].key == "interval" && o[2].key == "forecast_days" && o[3].key == "locations";
  }

  /** The top-level lookups of the precedence test's default document. */
  lemma TestDefaultsLookups()
    ensures Lookup(TestDefaults(), "api") == Some(YMap(TestDefaultApi()))
    ensures Lookup(TestDefaults(), "storage") ==
              Some(YMap([Entry("backend", Leaf(Str("local"))), Entry("compression", Leaf(Str("snappy")))]))
    ensures forall k :: k in {"timezone", "hourly_params", "daily_params"} ==> Lookup(TestDefaults(), k) == None
  {
    var d := TestDefaults();
    assert d[0].key == "api" && d[1].key == "interval" && d[2].key == "forecast_days" && d[3].key == "storage";
  }

  /** The two locations of the precedence test's override. */
  lemma PrecedenceLocationItems()
    ensures TestOverride()[3].value.YList?
    ensures Locations(TestOverride()[3].value.items) ==
              Some([Location("London", 51.5074, -0.1278), Location("Tokyo", 35.6762, 139.6503)])
  {
    var items := TestOverride()[3].value.items;
    assert items == [items[0], items[1]];
    assert LocationOf(items[0]) == Some(Location("London", 51.5074, -0.1278));
    assert LocationOf(items[1]) == Some(Location("Tokyo", 35.6762, 139.6503));
    LocationsPair(items[0], items[1]);
  }

  /** What a document loads to, read from its lookups alone: the shape of the merged precedence
      documents. */
  lemma LoadsFromLookups(m: seq<Entry>, api: seq<Entry>, storage: seq<Entry>, items: seq<Yaml>, locs: seq<Location>)
    requires Lookup(m, "locations") == Some(YList(items)) && Locations(items) == Some(locs)
    requires Lookup(m, "interval") == Some(Leaf(Str("hourly")))
    requires Lookup(m, "forecast_days") == Some(Leaf(Num(14.0, "14")))
    requires Lookup(m, "timezone") == None && Lookup(m, "hourly_params") == None && Lookup(m, "daily_params") == None
    requires Lookup(m, "api") == Some(YMap(api)) && Lookup(m, "storage") == Some(YMap(storage))
    requires Lookup(api, "base_url") == Some(Leaf(Str(DefaultApiBaseUrl)))
    requires Lookup(api, "timeout_seconds") == Some(Leaf(Num(60.0, "60")))
    requires Lookup(api, "max_concurrent_requests") == None
    requires Lookup(storage, "backend") == Some(Leaf(Str("local"))) && Lookup(storage, "base_path") == None
    requires Lookup(storage, "compression") == Some(Leaf(Str("snappy")))
    ensures LoadConfig(m) == Ok(PipelineConfig(ApiConfig(DefaultApiBaseUrl, 60, 5), locs, Hourly, [], [], 14, "UTC",
                                               StorageConfig("local", "data/weather", "snappy")))
  {
    assert LoadApiConfig(api) == Ok(ApiConfig(DefaultApiBaseUrl, 60, 5));
    assert LoadStorageConfig(storage) == Ok(StorageConfig("local", "data/weather", "snappy"));
  }

  /** The top-level entries of a merge whose override names the interval, the forecast length and
      the locations, and whose two documents leave storage to the defaults and name none of the
      other fields. */
  lemma MergedTopLookups(d: seq<Entry>, o: seq<Entry>, storage: seq<Entry>, items: seq<Yaml>)
    requires UniqueKeys(o)
    requires Lookup(o, "interval") == Some(Leaf(Str("hourly")))
    requires Lookup(o, "forecast_days") == Some(Leaf(Num(14.0, "14")))
    requires Lookup(o, "locations") == Some(YList(items))
    requires Lookup(o, "storage") == None && Lookup(d, "storage") == Some(YMap(storage))
    requires Lookup(o, "timezone") == None && Lookup(d, "timezone") == None
    requires Lookup(o, "hourly_params") == None && Lookup(d, "hourly_params") == None
    requires Lookup(o, "daily_params") == None && Lookup(d, "daily_params") == None
    ensures var m := DeepMerge(d, o);
            && Lookup(m, "interval") == Some(Leaf(Str("hourly")))
            && Lookup(m, "forecast_days") == Some(Leaf(Num(14.0, "14")))
            && Lookup(m, "locations") == Some(YList(items))
            && Lookup(m, "storage") == Some(YMap(storage))
            && Lookup(m, "timezone") == None && Lookup(m, "hourly_params") == None && Lookup(m, "daily_params") == None
  {
    MergeReplaces(d, o, "interval", Leaf(Str("hourly")));
    MergeReplaces(d, o, "forecast_days", Leaf(Num(14.0, "14")));
    MergeReplaces(d, o, "locations", YList(items));
    MergeKeepsBase(d, o, "storage");
    MergeKeepsBase(d, o, "timezone");
    MergeKeepsBase(d, o, "hourly_params");
    MergeKeepsBase(d, o, "daily_params");
  }

  /** The merged `api` section when both documents have one. */
  lemma MergedApiLookups(d: seq<Entry>, o: seq<Entry>, dApi: seq<Entry>, oApi: seq<Entry>)
    requires UniqueKeys(o) && UniqueKeys(oApi)
    requires Lookup(d, "api") == Some(YMap(dApi)) && Lookup(o, "api") == Some(YMap(oApi))
    requires Lookup(oApi, "base_url") == Some(Leaf(Str(DefaultApiBaseUrl)))
    requires Lookup(oApi, "timeout_seconds") == Some(Leaf(Num(60.0, "60")))
    requires Lookup(oApi, "max_concurrent_requests") == None && Lookup(dApi, "max_concurrent_requests") == None
    ensures Lookup(DeepMerge(d, o), "api") == Some(YMap(DeepMerge(dApi, oApi)))
    ensures Lookup(DeepMerge(dApi, oApi), "base_url") == Some(Leaf(Str(DefaultApiBaseUrl)))
    ensures Lookup(DeepMerge(dApi, oApi), "timeout_seconds") == Some(Leaf(Num(60.0, "60")))
    ensures Lookup(DeepMerge(dApi, oApi), "max_concurrent_requests") == None
  {
    MergeRecurses(d, o, "api", dApi, oApi);
    MergeApiFields(dApi, oApi, DefaultApiBaseUrl, Leaf(Num(60.0, "60")));
  }

  /** A defaults document and an override shaped like the precedence test's: the override names
      the hourly interval, 14 days, the locations and an `api` section with the URL and a 60 s
      timeout; the defaults have an `api` section and a storage section; neither names a
      concurrency limit, a timezone or variable lists. */
  predicate MergeShaped(d: seq<Entry>, o: seq<Entry>, dApi: seq<Entry>, oApi: seq<Entry>, storage: seq<Entry>,
                        items: seq<Yaml>, locs: seq<Location>) {
    && UniqueKeys(o) && UniqueKeys(oApi)
    && Lookup(d, "api") == Some(YMap(dApi)) && Lookup(o, "api") == Some(YMap(oApi))
    && Lookup(o, "interval") == Some(Leaf(Str("hourly")))
    && Lookup(o, "forecast_days") == Some(Leaf(Num(14.0, "14")))
    && Lookup(o, "locations") == Some(YList(items)) && Locations(items) == Some(locs)
    && Lookup(o, "storage") == None && Lookup(d, "storage") == Some(YMap(storage))
    && Lookup(o, "timezone") == None && Lookup(d, "timezone") == None
    && Lookup(o, "hourly_params") == None && Lookup(d, "hourly_params") == None
    && Lookup(o, "daily_params") == None && Lookup(d, "daily_params") == None
    && Lookup(oApi, "base_url") == Some(Leaf(Str(DefaultApiBaseUrl)))
    && Lookup(oApi, "timeout_seconds") == Some(Leaf(Num(60.0, "60")))
    && Lookup(oApi, "max_concurrent_requests") == None && Lookup(dApi, "max_concurrent_requests") == None
    && Lookup(storage, "backend") == Some(Leaf(Str("local"))) && Lookup(storage, "base_path") == None
    && Lookup(storage, "compression") == Some(Leaf(Str("snappy")))
  }

  /** Such documents load to the override's interval, days, locations and `api` fields, the
      defaults' storage, and the declared defaults for the rest. */
  lemma MergedLoads(d: seq<Entry>, o: seq<Entry>, dApi: seq<Entry>, oApi: seq<Entry>, storage: seq<Entry>,
                    items: seq<Yaml>, locs: seq<Location>)
    requires MergeShaped(d, o, dApi, oApi, storage, items, locs)
    ensures LoadConfigYml(d, Some(o)) ==
              Ok(PipelineConfig(ApiConfig(DefaultApiBaseUrl, 60, 5), locs, Hourly, [], [], 14, "UTC",
                                StorageConfig("local", "data/weather", "snappy")))
  {
    MergedTopLookups(d, o, storage, items);
    MergedApiLookups(d, o, dApi, oApi);
    LoadsFromLookups(DeepMerge(d, o), DeepMerge(dApi, oApi), storage, items, locs);
  }

  /** The precedence test's two documents have that shape, with its two locations. */
  lemma PrecedenceShaped()
    ensures MergeShaped(TestDefaults(), TestOverride(), TestDefaultApi(), TestOverrideApi(),
                        [Entry("backend", Leaf(Str("local"))), Entry("compression", Leaf(Str("snappy")))],
                        TestOverride()[3].value.items,
                        [Location("London", 51.5074, -0.1278), Location("Tokyo", 35.6762, 139.6503)])
  {
    TestOverrideUnique();
    TestOverrideLookups();
    TestDefaultsLookups();
    TestOverrideApiLookups();
    TestDefaultApiNoLimit();
    PrecedenceLocationItems();
    var storage := [Entry("backend", Leaf(Str("local"))), Entry("compression", Leaf(Str("snappy")))];
    assert Lookup(storage, "base_path") == None;
  }

  /** Without an override file the defaults document alone is validated. */
  lemma NoOverrideUsesDefaults(defaults: seq<Entry>)
    ensures LoadConfigYml(defaults, None) == LoadConfig(defaults)
  {
  }
}

=== FILE: json_store.dfy ===
/** The JSON file state store (weather_pipeline/state/json_store.py), as a value: the state
    file's content and the in-memory cache. Every operation returns its answer together with
    the store after it; the store object's mutation in place becomes the returned store. */
module JsonStore {

  import opened Wrappers
  import opened FetchState

  /** What the state file holds:
      - nothing;
      - something `load()` recovers from: text that is not JSON, or a JSON object that fails the
        state schema (`JSONDecodeError`, `ValidationError`);
      - something it does not recover from: valid JSON that is not an object, which `**data`
        rejects with `TypeError`, or bytes that are not UTF-8 (`UnicodeDecodeError`). The
        exception escapes with its message;
      - a document that decodes to a state.
      Serialisation is taken to round-trip: the document written for a state decodes to it. */
  datatype Disk = NoFile | Corrupt | Unreadable(error: string) | Document(state: PipelineState)

  datatype Store = Store(disk: Disk, cache: Option<PipelineState>)

  /** `JsonStateStore(state_file)`: nothing cached yet. */
  function Open(disk: Disk): (s: Store)
    ensures s.disk == disk && s.cache == None
  {
    Store(disk, None)
  }

  /** `load()`: the cached state when there is one; otherwise the file's state, or an empty
      state when the file is missing or is recoverably corrupt, and the answer is cached. An
      unrecoverable file raises, and nothing is cached. */
  function Load(store: Store, now: Instant): (out: Result<(PipelineState, Store), string>)
    ensures out.Err? <==> store.cache.None? && store.disk.Unreadable?
    ensures out.Err? ==> out.error == store.disk.error
    ensures out.Ok? ==> out.value.1.disk == store.disk && out.value.1.cache == Some(out.value.0)
    ensures store.cache.Some? ==> out == Ok((store.cache.value, store))
    ensures store.cache.None? && store.disk.Document? ==> out.Ok? && out.value.0 == store.disk.state
    ensures store.cache.None? && (store.disk.NoFile? || store.disk.Corrupt?) ==>
              out.Ok? && out.value.0 == NewPipelineState(now)
  {
    match store.cache
    case Some(st) => Ok((st, store))
    case None =>
      match store.disk
      case Unreadable(message) => Err(message)
      case NoFile => Ok((NewPipelineState(now), store.(cache := Some(NewPipelineState(now)))))
      case Corrupt => Ok((NewPipelineState(now), store.(cache := Some(NewPipelineState(now)))))
      case Document(st) => Ok((st, store.(cache := Some(st))))
  }

  /** `load()` returns rather than raises. */
  predicate Loadable(store: Store) {
    store.cache.Some? || !store.disk.Unreadable?
  }

  /** The state `load()` returns. */
  function Loaded(store: Store, now: Instant): PipelineState
    requires Loadable(store)
  {
    Load(store, now).value.0
  }

  /** `save(state)`: the file now holds `state`, and so does the cache. */
  function Save(store: Store, state: PipelineState): (s: Store)
    ensures s.disk == Document(state) && s.cache == Some(state)
  {
    Store(Document(state), Some(state))
  }

  /** What was saved is what is loaded next, at any later time, and the load changes nothing. */
  lemma SaveThenLoad(store: Store, state: PipelineState, now: Instant)
    ensures Load(Save(store, state), now) == Ok((state, Save(store, state)))
  {
  }

  /** A fresh store over a saved file loads what was saved: the document survives a restart. */
  lemma SaveSurvivesReopen(store: Store, state: PipelineState, now: Instant)
    ensures Load(Open(Save(store, state).disk), now).Ok?
    ensures Load(Open(Save(store, state).disk), now).value.0 == state
  {
  }

  /** Loading twice gives the same state and leaves the store as the first load left it. */
  lemma LoadIdempotent(store: Store, now: Instant, later: Instant)
    ensures Load(store, now).Ok? ==> Load(Load(store, now).value.1, later) == Load(store, now)
  {
  }

  /** `get_location(...)` on the store: the cached state may gain a default entry, the file
      never changes; an unrecoverable file raises from the load. */
  function GetLocation(store: Store, locationName: string, provider: string, interval: string, now: Instant)
    : (out: Result<(LocationFetchState, Store), string>)
    ensures out.Ok? <==> Loadable(store)
    ensures out.Err? ==> out.error == store.disk.error
    ensures out.Ok? ==>
              var key := Key(locationName, provider, interval);
              var (entry, s1) := out.value;
              && s1.disk == store.disk
              && s1.cache.Some? && key in s1.cache.value.locations
              && s1.cache.value.locations[key] == entry
  {
    var loaded :- Load(store, now);
    var (st, s1) := loaded;
    var (entry, st') := FetchState.GetLocation(st, locationName, provider, interval, now);
    Ok((entry, s1.(cache := Some(st'))))
  }

  /** `update_location(entry)`: files the entry under the key of its own identity fields, stamps
      the state and writes it out. */
  function UpdateLocation(store: Store, entry: LocationFetchState, now: Instant): (r: Result<Store, string>)
    ensures r.Ok? <==> Loadable(store)
    ensures r.Err? ==> r.error == store.disk.error
    ensures r.Ok? ==> r.value.cache.Some? && r.value.disk == Document(r.value.cache.value)
    ensures r.Ok? ==>
              var before := Loaded(store, now);
              var after := r.value.cache.value;
              && after.locations == before.locations[KeyOf(entry) := entry]
              && after.lastUpdated == now
              && after.version == before.version
  {
    var loaded :- Load(store, now);
    var (st, s1) := loaded;
    var st' := UpdateLastModified(st.(locations := st.locations[KeyOf(entry) := entry]), now);
    Ok(Save(s1, st'))
  }

  /** The state as `GetLocation` leaves it in the cache: the loaded state plus, if it was missing,
      the default entry for the key. */
  function AfterLookup(store: Store, locationName: string, provider: string, interval: string, now: Instant): PipelineState
    requires Loadable(store)
  {
    FetchState.GetLocation(Loaded(store, now), locationName, provider, interval, now).1
  }

  lemma LookupKeepsWellKeyed(store: Store, locationName: string, provider: string, interval: string, now: Instant)
    requires Loadable(store)
    ensures GetLocation(store, locationName, provider, interval, now).Ok?
    ensures var (entry, s1) := GetLocation(store, locationName, provider, interval, now).value;
            && s1.cache == Some(AfterLookup(store, locationName, provider, interval, now))
            && Loadable(s1) && Loaded(s1, now) == AfterLookup(store, locationName, provider, interval, now)
            && (WellKeyed(Loaded(store, now)) ==>
                  WellKeyed(s1.cache.value) && KeyOf(entry) == Key(locationName, provider, interval))
  {
    var st := Loaded(store, now);
    if WellKeyed(st) {
      GetLocationKeepsWellKeyed(st, locationName, provider, interval, now);
    }
  }

  /** An entry as a success recorded at `now` for `n` records leaves it. */
  predicate SucceededWith(e: LocationFetchState, n: int, now: Instant) {
    e.lastFetchStatus == Success && e.recordsFetched == n && e.lastFetchError == None && e.lastFetchTimestamp == now
  }

  /** An entry as a failure recorded at `now` with message `error` leaves it. */
  predicate FailedWith(e: LocationFetchState, error: string, now: Instant) {
    e.lastFetchStatus == Failure && e.recordsFetched == 0 && e.lastFetchError == Some(error) && e.lastFetchTimestamp == now
  }

  /** `mark_fetch_success(...)`: read-modify-persist of one entry; an unrecoverable state file
      raises before anything is written. */
  function MarkFetchSuccess(store: Store, locationName: string, provider: string, interval: string,
                            recordsFetched: int, forecastEndDate: Option<string>, now: Instant): (r: Result<Store, string>)
    ensures r.Ok? <==> Loadable(store)
    ensures r.Err? ==> r.error == store.disk.error
    ensures r.Ok? ==> r.value.cache.Some? && r.value.disk == Document(r.value.cache.value)
    ensures r.Ok? && WellKeyed(Loaded(store, now)) ==> WellKeyed(r.value.cache.value)
    ensures r.Ok? && WellKeyed(Loaded(store, now)) ==>
              var key := Key(locationName, provider, interval);
              key in r.value.cache.value.locations && SucceededWith(r.value.cache.value.locations[key], recordsFetched, now)
    ensures r.Ok? && WellKeyed(Loaded(store, now)) ==>
              var key := Key(locationName, provider, interval);
              var mid := AfterLookup(store, locationName, provider, interval, now);
              key in mid.locations
              && r.value.cache.value.locations[key] == MarkSuccess(mid.locations[key], recordsFetched, forecastEndDate, now)
    ensures r.Ok? && WellKeyed(Loaded(store, now)) ==>
              var key := Key(locationName, provider, interval);
              var mid := AfterLookup(store, locationName, provider, interval, now);
              forall k :: k != key ==>
                (k in r.value.cache.value.locations <==> k in mid.locations)
                && (k in mid.locations ==> r.value.cache.value.locations[k] == mid.locations[k])
  {
    var found :- GetLocation(store, locationName, provider, interval, now);
    var (entry, s1) := found;
    LookupKeepsWellKeyed(store, locationName, provider, interval, now);
    UpdateLocation(s1, MarkSuccess(entry, recordsFetched, forecastEndDate, now), now)
  }

  /** `mark_fetch_failure(...)`: read-modify-persist of one entry; an unrecoverable state file
      raises before anything is written. */
  function MarkFetchFailure(store: Store, locationName: string, provider: string, interval: string,
                            error: string, now: Instant): (r: Result<Store, string>)
    ensures r.Ok? <==> Loadable(store)
    ensures r.Err? ==> r.error == store.disk.error
    ensures r.Ok? ==> r.value.cache.Some? && r.value.disk == Document(r.value.cache.value)
    ensures r.Ok? && WellKeyed(Loaded(store, now)) ==> WellKeyed(r.value.cache.value)
    ensures r.Ok? && WellKeyed(Loaded(store, now)) ==>
              var key := Key(locationName, provider, interval);
              key in r.value.cache.value.locations && FailedWith(r.value.cache.value.locations[key], error, now)
    ensures r.Ok? && WellKeyed(Loaded(store, now)) ==>
              var key := Key(locationName, provider, interval);
              var mid := AfterLookup(store, locationName, provider, interval, now);
              key in mid.locations
              && r.value.cache.value.locations[key] == MarkFailure(mid.locations[key], error, now)
    ensures r.Ok? && WellKeyed(Loaded(store, now)) ==>
              var key := Key(locationName, provider, interval);
              var mid := AfterLookup(store, locationName, provider, interval, now);
              forall k :: k != key ==>
                (k in r.value.cache.value.locations <==> k in mid.locations)
                && (k in mid.locations ==> r.value.cache.value.locations[k] == mid.locations[k])
  {
    var found :- GetLocation(store, locationName, provider, interval, now);
    var (entry, s1) := found;
    LookupKeepsWellKeyed(store, locationName, provider, interval, now);
    UpdateLocation(s1, MarkFailure(entry, error, now), now)
  }

  /** A forecast end date recorded by a success survives a later failure of the same location. */
  lemma ForecastEndSurvivesFailure(store: Store, locationName: string, provider: string, interval: string,
                                   recordsFetched: int, forecastEnd: string, error: string, t1: Instant, t2: Instant)
    requires Loadable(store) && WellKeyed(Loaded(store, t1)) && forecastEnd != ""
    ensures var s1 := MarkFetchSuccess(store, locationName, provider, interval, recordsFetched, Some(forecastEnd), t1);
            && s1.Ok?
            && var s2 := MarkFetchFailure(s1.value, locationName, provider, interval, error, t2);
            var key := Key(locationName, provider, interval);
            && s2.Ok? && key in s2.value.cache.value.locations
            && s2.value.cache.value.locations[key].forecastEndDate == Some(forecastEnd)
  {
    var key := Key(locationName, provider, interval);
    var s1 := MarkFetchSuccess(store, locationName, provider, interval, recordsFetched, Some(forecastEnd), t1).value;
    assert Truthy(Some(forecastEnd));
    assert Loaded(s1, t2) == s1.cache.value;
    var mid := AfterLookup(s1, locationName, provider, interval, t2);
    assert mid == s1.cache.value;
  }

  /** Once a state is cached the file is never read again: a later unrecoverable file cannot
      make a mark fail. */
  lemma CachedStoreNeverRaises(store: Store, locationName: string, provider: string, interval: string, error: string, now: Instant)
    requires store.cache.Some?
    ensures MarkFetchFailure(store, locationName, provider, interval, error, now).Ok?
  {
  }

  /** The scenario of the store's persistence test: starting from no state file, a success for
      London and then a failure for Tokyo leave both entries on disk, London's untouched by the
      second call. */
  lemma SuccessThenFailureKeepsBoth(t1: Instant, t2: Instant)
    ensures var s1 := MarkFetchSuccess(Open(NoFile), "London", "open_meteo", "daily", 42, None, t1);
            && s1.Ok?
            && var s2 := MarkFetchFailure(s1.value, "Tokyo", "open_meteo", "daily", "Connection timeout", t2);
            var london := Key("London", "open_meteo", "daily");
            var tokyo := Key("Tokyo", "open_meteo", "daily");
            && s2.Ok? && s2.value.disk.Document?
            && london in s2.value.disk.state.locations && tokyo in s2.value.disk.state.locations
            && SucceededWith(s2.value.disk.state.locations[london], 42, t1)
            && FailedWith(s2.value.disk.state.locations[tokyo], "Connection timeout", t2)
  {
    var s0 := Open(NoFile);
    assert WellKeyed(Loaded(s0, t1));
    var s1 := MarkFetchSuccess(s0, "London", "open_meteo", "daily", 42, None, t1).value;
    var london := Key("London", "open_meteo", "daily");
    var tokyo := Key("Tokyo", "open_meteo", "daily");
    assert london != tokyo by {
      assert london[17] == 'L' && tokyo[17] == 'T';
    }
    assert Loaded(s1, t2) == s1.cache.value;
    LookupKeepsWellKeyed(s1, "Tokyo", "open_meteo", "daily", t2);
    var mid := AfterLookup(s1, "Tokyo", "open_meteo", "daily", t2);
    assert london in mid.locations && mid.locations[london] == s1.cache.value.locations[london];
  }
}

=== FILE: pipeline.dfy ===
/** One ingestion run (weather_pipeline/pipeline.py, `run_pipeline_async`): fetch every
    configured location, sort the outcomes into failures and results, transform every result with
    the run's id, write the rows partitioned by location, and summarise. The run id, the clock
    readings and the HTTP exchange are parameters. */
module Pipeline {

  import opened Wrappers
  import opened Calendar
  import opened Schemas
  import opened Transforms
  import opened ParquetWriter
  import opened OpenMeteo
  import opened Config

  const AllFailedMessage := "All locations failed to fetch data."

  /** The errors among the outcomes, in order. */
  function Failures(os: seq<FetchOutcome>): (fs: seq<FetchError>)
    ensures forall e :: e in fs <==> Failed(e) in os
  {
    if os == [] then []
    else
      assert forall o :: o in os <==> o == os[0] || o in os[1..] by {
        assert os == [os[0]] + os[1..];
      }
      (if os[0].Failed? then [os[0].failure] else []) + Failures(os[1..])
  }

  /** The results among the outcomes, in order. */
  function Successes(os: seq<FetchOutcome>): (rs: seq<FetchResult>)
    ensures forall r :: r in rs <==> Fetched(r) in os
  {
    if os == [] then []
    else
      assert forall o :: o in os <==> o == os[0] || o in os[1..] by {
        assert os == [os[0]] + os[1..];
      }
      (if os[0].Fetched? then [os[0].result] else []) + Successes(os[1..])
  }

  /** One outcome classifies as itself: an error, or a result. */
  lemma ClassifyOne(o: FetchOutcome)
    ensures Failures([o]) == (if o.Failed? then [o.failure] else [])
    ensures Successes([o]) == (if o.Fetched? then [o.result] else [])
  {
    assert [o][1..] == [];
  }

  /** Classification keeps order: the errors of two runs of outcomes back to back are the first
      run's followed by the second's. */
  lemma {:induction false} FailuresConcat(a: seq<FetchOutcome>, b: seq<FetchOutcome>)
    ensures Failures(a + b) == Failures(a) + Failures(b)
  {
    if a == [] {
      assert a + b == b;
    } else {
      var head := if a[0].Failed? then [a[0].failure] else [];
      assert (a + b)[1..] == a[1..] + b;
      calc {
        Failures(a + b);
        head + Failures(a[1..] + b);
        { FailuresConcat(a[1..], b); }
        head + (Failures(a[1..]) + Failures(b));
        (head + Failures(a[1..])) + Failures(b);
      }
    }
  }

  /** The same for the results. */
  lemma {:induction false} SuccessesConcat(a: seq<FetchOutcome>, b: seq<FetchOutcome>)
    ensures Successes(a + b) == Successes(a) + Successes(b)
  {
    if a == [] {
      assert a + b == b;
    } else {
      var head := if a[0].Fetched? then [a[0].result] else [];
      assert (a + b)[1..] == a[1..] + b;
      calc {
        Successes(a + b);
        head + Successes(a[1..] + b);
        { SuccessesConcat(a[1..], b); }
        head + (Successes(a[1..]) + Successes(b));
        (head + Successes(a[1..])) + Successes(b);
      }
    }
  }

  /** Every outcome is classified exactly once: as many errors and results as outcomes. */
  lemma {:induction false} ClassificationPartitions(os: seq<FetchOutcome>)
    ensures |Failures(os)| + |Successes(os)| == |os|
  {
    if os != [] {
      ClassificationPartitions(os[1..]);
    }
  }

  /** The transform the interval selects: hourly for "hourly", daily otherwise. */
  function TransformFor(interval: Interval, r: FetchResult, runId: string, parse: Parser)
    : Result<seq<WeatherRow>, TransformError>
  {
    match interval
    case Hourly => TransformHourly(r, Some(runId), parse)
    case Daily => TransformDaily(r, Some(runId), parse)
  }

  /** The payload section the interval reads. */
  function SectionOf(interval: Interval): string {
    interval.Name()
  }

  /** The frames of all results, in order; the first transform that raises ends the run. */
  function TransformAll(interval: Interval, rs: seq<FetchResult>, runId: string, parse: Parser)
    : (res: Result<seq<seq<WeatherRow>>, TransformError>)
    ensures res.Ok? <==> forall i :: 0 <= i < |rs| ==> TransformFor(interval, rs[i], runId, parse).Ok?
    ensures res.Ok? ==>
              && |res.value| == |rs|
              && forall i :: 0 <= i < |rs| ==> TransformFor(interval, rs[i], runId, parse) == Ok(res.value[i])
    ensures res.Err? ==>
              exists i :: 0 <= i < |rs| && TransformFor(interval, rs[i], runId, parse) == Err(res.error)
                          && forall j :: 0 <= j < i ==> TransformFor(interval, rs[j], runId, parse).Ok?
  {
    var f := FrameBuilder(interval, rs, runId, parse);
    assert forall i :: 0 <= i < |rs| ==> f(i) == TransformFor(interval, rs[i], runId, parse);
    Collect(|rs|, f)
  }

  /** Transforms result `i`. */
  function FrameBuilder(interval: Interval, rs: seq<FetchResult>, runId: string, parse: Parser)
    : nat -> Result<seq<WeatherRow>, TransformError>
  {
    (i: nat) => if i < |rs| then TransformFor(interval, rs[i], runId, parse) else Ok([])
  }

  /** `pl.concat(dfs)`: the frames one after the other. */
  function Concat(frames: seq<seq<WeatherRow>>): (rows: seq<WeatherRow>) {
    if frames == [] then [] else frames[0] + Concat(frames[1..])
  }

  /** Total number of rows over the frames. */
  function RowCount(frames: seq<seq<WeatherRow>>): nat {
    if frames == [] then 0 else |frames[0]| + RowCount(frames[1..])
  }

  lemma {:induction false} ConcatLength(frames: seq<seq<WeatherRow>>)
    ensures |Concat(frames)| == RowCount(frames)
  {
    if frames != [] {
      ConcatLength(frames[1..]);
    }
  }

  /** Why a run raises instead of returning a summary: a transform raised, or the writer asked
      the concatenated frame for a column it does not have. */
  datatype RunError = TransformFailed(cause: TransformError) | ColumnNotFound(column: string)

  /** The summary and writes of a run once its outcomes are in. A transform that yields no rows
      yields a frame with no columns at all, so when every result yields none the writer's
      lookup of `location_name` raises. */
  function Aggregate(interval: Interval, os: seq<FetchOutcome>, runId: string, runStart: DateTime, runEnd: DateTime,
                     basePath: string, writeClock: nat -> DateTime, parse: Parser)
    : (res: Result<PipelineResult, RunError>)
    ensures var t := TransformAll(interval, Successes(os), runId, parse);
            && (t.Err? <==> res.Err? && res.error.TransformFailed?)
            && (t.Err? ==> res == Err(TransformFailed(t.error)))
            && (res.Err? && res.error.ColumnNotFound? <==>
                  t.Ok? && Successes(os) != [] && RowCount(t.value) == 0)
            && (res.Err? && res.error.ColumnNotFound? ==> res.error.column == "location_name")
    ensures res.Ok? ==>
              && res.value.runId == runId && res.value.runStart == runStart && res.value.runEnd == runEnd
              && res.value.failed == Failures(os)
              && (res.value.success <==> Successes(os) != [])
    ensures res.Ok? && !res.value.success ==>
              && res.value.recordsProcessed == 0
              && res.value.files == []
              && res.value.error == Some(AllFailedMessage)
    ensures res.Ok? && res.value.success ==>
              var frames := TransformAll(interval, Successes(os), runId, parse).value;
              && res.value.files == WritePartitioned(basePath, Concat(frames), interval.Name(), writeClock)
              && res.value.recordsProcessed == TotalRecords(res.value.files)
              && res.value.recordsProcessed == RowCount(frames) > 0
              && res.value.files != []
              && res.value.error == None
  {
    match TransformAll(interval, Successes(os), runId, parse)
    case Err(e) => Err(TransformFailed(e))
    case Ok(frames) =>
    if Successes(os) == [] then
      Ok(PipelineResult(false, runId, runStart, runEnd, 0, [], Failures(os), Some(AllFailedMessage)))
    else if RowCount(frames) == 0 then
      Err(ColumnNotFound("location_name"))
    else
      var rows := Concat(frames);
      var files := WritePartitioned(basePath, rows, interval.Name(), writeClock);
      WritePartitionedTotal(basePath, rows, interval.Name(), writeClock);
      ConcatLength(frames);
      assert Names(rows)[0] in DistinctNames(rows);
      Ok(PipelineResult(true, runId, runStart, runEnd, TotalRecords(files), files, Failures(os), None))
  }

  /** Length of the `time` series of a section, zero when there is none. */
  function TimeLength(r: FetchResult, section: string): nat {
    if HasTime(r, section) then |r.data.sections[section]["time"]| else 0
  }

  /** Total `time` entries over the results' sections. */
  function TimeEntries(rs: seq<FetchResult>, section: string): nat {
    if rs == [] then 0 else TimeLength(rs[0], section) + TimeEntries(rs[1..], section)
  }

  /** A successful run reports as processed exactly one record per time entry of every fetched
      location's selected section. */
  lemma RecordsAreTimeEntries(interval: Interval, rs: seq<FetchResult>, runId: string, parse: Parser)
    requires TransformAll(interval, rs, runId, parse).Ok?
    ensures RowCount(TransformAll(interval, rs, runId, parse).value) == TimeEntries(rs, SectionOf(interval))
  {
    var frames := TransformAll(interval, rs, runId, parse).value;
    forall i | 0 <= i < |rs|
      ensures |frames[i]| == TimeLength(rs[i], SectionOf(interval))
    {
      assert TransformFor(interval, rs[i], runId, parse) == Ok(frames[i]);
    }
    FrameSizes(frames, rs, SectionOf(interval));
  }

  lemma {:induction false} FrameSizes(frames: seq<seq<WeatherRow>>, rs: seq<FetchResult>, section: string)
    requires |frames| == |rs|
    requires forall i :: 0 <= i < |rs| ==> |frames[i]| == TimeLength(rs[i], section)
    ensures RowCount(frames) == TimeEntries(rs, section)
  {
    if rs != [] {
      FrameSizes(frames[1..], rs[1..], section);
    }
  }

  /** The client a run builds from its configuration: only the selected interval's variables are
      requested. */
  function ClientFor(config: PipelineConfig): (c: Client)
    ensures c.baseUrl == config.api.baseUrl && c.timeout == config.api.timeoutSeconds
    ensures c.maxConcurrentRequests == config.api.maxConcurrentRequests
    ensures c.hourlyParams == (if config.interval == Hourly then Some(config.hourlyParams) else None)
    ensures c.dailyParams == (if config.interval == Daily then Some(config.dailyParams) else None)
    ensures c.forecastDays == config.forecastDays && c.timezone == config.timezone
  {
    Client(config.api.baseUrl, config.api.timeoutSeconds, config.api.maxConcurrentRequests,
           if config.interval == Hourly then Some(config.hourlyParams) else None,
           if config.interval == Daily then Some(config.dailyParams) else None,
           config.forecastDays, config.timezone)
  }

  /** A run never asks for the other interval's variables. */
  lemma OnlySelectedIntervalRequested(config: PipelineConfig, loc: Location)
    ensures config.interval == Hourly ==> "daily" !in BuildParams(ClientFor(config), loc)
    ensures config.interval == Daily ==> "hourly" !in BuildParams(ClientFor(config), loc)
  {
  }

  /** `run_pipeline_async(config)`: fetch (location `i` at `fetchClock(i)`), then aggregate. A
      run that reports failure failed every configured location and wrote nothing; every failure
      it reports belongs to a configured location. */
  function RunPipeline(config: PipelineConfig, transport: Transport, runId: string, runStart: DateTime, runEnd: DateTime,
                       fetchClock: nat -> DateTime, writeClock: nat -> DateTime, parse: Parser)
    : (res: Result<PipelineResult, RunError>)
    ensures res.Ok? ==> res.value.runId == runId && res.value.runStart == runStart && res.value.runEnd == runEnd
    ensures res.Ok? ==> forall e :: e in res.value.failed ==> e.location in config.locations
    ensures res.Ok? && !res.value.success ==>
              && res.value.files == [] && res.value.recordsProcessed == 0
              && |res.value.failed| == |config.locations|
    ensures res.Ok? && res.value.success ==>
              && res.value.recordsProcessed == TotalRecords(res.value.files) > 0
              && res.value.files != [] && res.value.error == None
  {
    var os := FetchData(ClientFor(config), config.locations, fetchClock, transport);
    EveryLocationAccountedFor(config, transport, fetchClock);
    Aggregate(config.interval, os, runId, runStart, runEnd, config.storage.basePath, writeClock, parse)
  }

  /** Every configured location is accounted for: it yields a result or shows up among the
      failures, never both, and nothing else shows up. */
  lemma EveryLocationAccountedFor(config: PipelineConfig, transport: Transport, fetchClock: nat -> DateTime)
    ensures var os := FetchData(ClientFor(config), config.locations, fetchClock, transport);
            && |Failures(os)| + |Successes(os)| == |config.locations|
            && (forall e :: e in Failures(os) ==> e.location in config.locations)
            && (forall r :: r in Successes(os) ==> r.location in config.locations)
  {
    var os := FetchData(ClientFor(config), config.locations, fetchClock, transport);
    ClassificationPartitions(os);
    forall e | e in Failures(os) ensures e.location in config.locations {
      var i :| 0 <= i < |os| && os[i] == Failed(e);
      assert os[i].LocationOf() == config.locations[i];
    }
    forall r | r in Successes(os) ensures r.location in config.locations {
      var i :| 0 <= i < |os| && os[i] == Fetched(r);
      assert os[i].LocationOf() == config.locations[i];
    }
  }

  /** As the client is written, every run ends with all locations failed and nothing written. */
  lemma AsWrittenRunAlwaysFails(config: PipelineConfig, transport: Transport, runId: string, runStart: DateTime,
                                runEnd: DateTime, fetchClock: nat -> DateTime, writeClock: nat -> DateTime, parse: Parser)
    ensures var os := FetchDataAsWritten(ClientFor(config), config.locations, fetchClock, transport);
            var res := Aggregate(config.interval, os, runId, runStart, runEnd, config.storage.basePath, writeClock, parse);
            && res.Ok? && !res.value.success && res.value.files == []
            && |res.value.failed| == |config.locations|
  {
    var os := FetchDataAsWritten(ClientFor(config), config.locations, fetchClock, transport);
    AsWrittenEveryFetchFails(ClientFor(config), config.locations, fetchClock, transport);
    NoResultsWhenAllFail(os);
    ClassificationPartitions(os);
  }

  lemma {:induction false} NoResultsWhenAllFail(os: seq<FetchOutcome>)
    requires forall i :: 0 <= i < |os| ==> os[i].Failed?
    ensures Successes(os) == []
  {
    if os != [] {
      NoResultsWhenAllFail(os[1..]);
    }
  }
}

=== FILE: schemas.dfy ===
/** The records every stage of the ingestion run shares: locations, fetch outcomes,
    standardized rows, write results and the run summary (weather_pipeline/models/schemas.py).
    Python floats are modelled as `real`; the model never computes with them. */
module Schemas {

  import opened Wrappers
  import opened Calendar

  /** One decoded JSON scalar. `Num` keeps the decoded value together with the text Python's
      `str()` gives for it, which the JSON decoder supplies and the model does not compute. */
  datatype Scalar = Null | Bool(b: bool) | Num(value: real, repr: string) | Str(s: string)

  /** A series of the upstream payload: one cell per entry of its `time` series. */
  type Series = seq<Scalar>

  /** A decoded API response: top-level scalar fields (`latitude`, `error`, `reason`, ...) and
      the nested time-series sections (`hourly`, `daily`), each a map from field name to series.
      A JSON object holds each key once, so a payload read from one has no key in both `fields`
      and `sections`; no operation of the model depends on that, so the type does not enforce it. */
  datatype Payload = Payload(fields: map<string, Scalar>, sections: map<string, map<string, Series>>)

  datatype Location = Location(name: string, latitude: real, longitude: real)

  /** Client-side facts about one HTTP exchange. */
  datatype IngestionMetadata = IngestionMetadata(
    ingestionTimestampUtc: DateTime,
    requestUrl: string,
    elapsedMs: real,
    statusCode: int)

  /** Facts the API reports about the grid point it answered for. */
  datatype ApiMetadata = ApiMetadata(
    apiLatitude: real,
    apiLongitude: real,
    elevation: real,
    generationtimeMs: real,
    timezone: string,
    utcOffsetSeconds: int)

  datatype FetchResult = FetchResult(
    data: Payload,
    location: Location,
    ingestionMetadata: IngestionMetadata,
    apiMetadata: ApiMetadata)

  datatype FetchError = FetchError(location: Location, error: string, status: string)

  /** What a fetch produces for one location: exactly one of a result or an error. */
  datatype FetchOutcome = Fetched(result: FetchResult) | Failed(failure: FetchError) {
    function LocationOf(): Location {
      match this
      case Fetched(r) => r.location
      case Failed(e) => e.location
    }
  }

  const DefaultFetchStatus := "failed"
  const DefaultSourceApi := "open-meteo"
  const DefaultWriteFormat := "parquet"

  /** `FetchError(location=..., error=...)`: the status field takes its default. */
  function NewFetchError(location: Location, error: string): (e: FetchError)
    ensures e.location == location && e.error == error && e.status == "failed"
  {
    FetchError(location, error, DefaultFetchStatus)
  }

  /** A standardized row of either frequency. Measurement cells are kept as the payload gave
      them; `Null` is Python's `None`, the default of every measurement field. */
  datatype WeatherRow =
    | HourlyRow(
        locationName: string,
        requestedLatitude: real,
        requestedLongitude: real,
        apiLatitude: real,
        apiLongitude: real,
        timestamp: DateTime,
        temperature2m: Scalar,
        precipitation: Scalar,
        relativeHumidity2m: Scalar,
        windspeed10m: Scalar,
        windDirection10m: Scalar,
        cloudCover: Scalar,
        weatherCode: Scalar,
        sourceApi: string,
        ingestionTimestampUtc: DateTime,
        runId: Option<string>)
    | DailyRow(
        locationName: string,
        requestedLatitude: real,
        requestedLongitude: real,
        apiLatitude: real,
        apiLongitude: real,
        date: DateTime,
        temperature2mMax: Scalar,
        temperature2mMin: Scalar,
        precipitationSum: Scalar,
        sourceApi: string,
        ingestionTimestampUtc: DateTime,
        runId: Option<string>)

  datatype WriteResult = WriteResult(path: string, recordsWritten: int, format: string)

  /** `WriteResult(path=..., records_written=...)`: the format field takes its default. */
  function NewWriteResult(path: string, recordsWritten: int): (w: WriteResult)
    ensures w.path == path && w.recordsWritten == recordsWritten && w.format == "parquet"
  {
    WriteResult(path, recordsWritten, DefaultWriteFormat)
  }

  datatype PipelineResult = PipelineResult(
    success: bool,
    runId: string,
    runStart: DateTime,
    runEnd: DateTime,
    recordsProcessed: int,
    files: seq<WriteResult>,
    failed: seq<FetchError>,
    error: Option<string>)

  /** `PipelineResult` built from its required fields only. */
  function NewPipelineResult(success: bool, runId: string, runStart: DateTime, runEnd: DateTime): (p: PipelineResult)
    ensures p.success == success && p.runId == runId && p.runStart == runStart && p.runEnd == runEnd
    ensures p.recordsProcessed == 0 && p.files == [] && p.failed == [] && p.error == None
  {
    PipelineResult(success, runId, runStart, runEnd, 0, [], [], None)
  }
}

=== FILE: state.dfy ===
/** Per-location fetch history (weather_pipeline/state/models.py). Instants are whole seconds
    on the UTC clock; every "now" the source reads from the clock is a parameter here. */
module FetchState {

  import opened Wrappers
  import opened Text

  type Instant = int

  datatype Status = Success | Failure | Partial

  datatype LocationFetchState = LocationFetchState(
    locationName: string,
    provider: string,
    interval: string,
    lastFetchTimestamp: Instant,
    lastFetchStatus: Status,
    lastFetchError: Option<string>,
    recordsFetched: int,
    forecastEndDate: Option<string>)

  const DefaultFreshHours := 6
  const StateVersion := "1.0"

  /** `LocationFetchState(location_name=..., provider=..., interval=...)` created at `now`. */
  function NewLocationFetchState(locationName: string, provider: string, interval: string, now: Instant): (s: LocationFetchState)
    ensures s.locationName == locationName && s.provider == provider && s.interval == interval
    ensures s.lastFetchTimestamp == now && s.lastFetchStatus == Success && s.lastFetchError == None
    ensures s.recordsFetched == 0 && s.forecastEndDate == None
  {
    LocationFetchState(locationName, provider, interval, now, Success, None, 0, None)
  }

  /** Whether the last fetch succeeded less than `hours` hours before `now`. The source divides
      elapsed seconds by 3600 and compares with `hours`; the body compares whole seconds instead,
      and the contract says the two agree. */
  function IsFresh(s: LocationFetchState, now: Instant, hours: int): (recent: bool)
    ensures s.lastFetchStatus != Success ==> !recent
    ensures s.lastFetchStatus == Success ==>
              (recent <==> ((now - s.lastFetchTimestamp) as real) / 3600.0 < hours as real)
  {
    s.lastFetchStatus == Success && now - s.lastFetchTimestamp < hours * 3600
  }

  /** A truthy optional string: present and non-empty. */
  predicate Truthy(d: Option<string>) {
    d.Some? && d.value != ""
  }

  /** Records a successful fetch of `recordsFetched` rows whose forecast ends at `forecastEndDate`. */
  function MarkSuccess(s: LocationFetchState, recordsFetched: int, forecastEndDate: Option<string>, now: Instant): (s': LocationFetchState)
    ensures s'.lastFetchStatus == Success && s'.lastFetchError == None
    ensures s'.recordsFetched == recordsFetched && s'.lastFetchTimestamp == now
    ensures Truthy(forecastEndDate) ==> s'.forecastEndDate == forecastEndDate
    ensures !Truthy(forecastEndDate) ==> s'.forecastEndDate == s.forecastEndDate
    ensures s'.locationName == s.locationName && s'.provider == s.provider && s'.interval == s.interval
  {
    s.(lastFetchTimestamp := now,
       lastFetchStatus := Success,
       lastFetchError := None,
       recordsFetched := recordsFetched,
       forecastEndDate := if Truthy(forecastEndDate) then forecastEndDate else s.forecastEndDate)
  }

  /** Records a failed fetch: the message is kept verbatim and the record count drops to zero. */
  function MarkFailure(s: LocationFetchState, error: string, now: Instant): (s': LocationFetchState)
    ensures s'.lastFetchStatus == Failure && s'.lastFetchError == Some(error)
    ensures s'.recordsFetched == 0 && s'.lastFetchTimestamp == now
    ensures s'.forecastEndDate == s.forecastEndDate
    ensures s'.locationName == s.locationName && s'.provider == s.provider && s'.interval == s.interval
  {
    s.(lastFetchTimestamp := now, lastFetchStatus := Failure, lastFetchError := Some(error), recordsFetched := 0)
  }

  /** A failure is never fresh, whatever the window: a caller never skips a location whose last fetch failed. */
  lemma FailureIsNeverFresh(s: LocationFetchState, error: string, now: Instant, later: Instant, hours: int)
    ensures !IsFresh(MarkFailure(s, error, now), later, hours)
  {
  }

  /** A success is fresh for exactly `hours` hours after it is recorded. */
  lemma SuccessFreshWindow(s: LocationFetchState, n: int, d: Option<string>, now: Instant, elapsed: int, hours: int)
    ensures IsFresh(MarkSuccess(s, n, d, now), now + elapsed, hours) <==> elapsed < hours * 3600
  {
  }

  /** Under the default window a success stays fresh for six hours: 21600 seconds. */
  lemma DefaultFreshWindow(s: LocationFetchState, n: int, d: Option<string>, now: Instant, elapsed: int)
    ensures IsFresh(MarkSuccess(s, n, d, now), now + elapsed, DefaultFreshHours) <==> elapsed < 21600
  {
    SuccessFreshWindow(s, n, d, now, elapsed, DefaultFreshHours);
  }

  datatype PipelineState = PipelineState(
    version: string,
    lastUpdated: Instant,
    locations: map<string, LocationFetchState>)

  /** `PipelineState()`: version "1.0", no locations. */
  function NewPipelineState(now: Instant): (st: PipelineState)
    ensures st.version == "1.0" && st.lastUpdated == now && st.locations == map[]
  {
    PipelineState(StateVersion, now, map[])
  }

  /** The composite key `provider:interval:location_name`. */
  function Key(locationName: string, provider: string, interval: string): string {
    provider + ":" + interval + ":" + locationName
  }

  /** The key a record is filed under, built from its own identity fields. */
  function KeyOf(s: LocationFetchState): string {
    Key(s.locationName, s.provider, s.interval)
  }

  /** Get-or-create: returns the entry under the key and the state after a missing key has
      received a default entry created at `now`. */
  function GetLocation(st: PipelineState, locationName: string, provider: string, interval: string, now: Instant)
    : (out: (LocationFetchState, PipelineState))
    ensures var key := Key(locationName, provider, interval);
            key in out.1.locations && out.0 == out.1.locations[key]
    ensures var key := Key(locationName, provider, interval);
            key in st.locations ==> out == (st.locations[key], st)
    ensures var key := Key(locationName, provider, interval);
            key !in st.locations ==>
              && out.0 == NewLocationFetchState(locationName, provider, interval, now)
              && out.1.locations.Keys == st.locations.Keys + {key}
              && (forall k :: k in st.locations ==> out.1.locations[k] == st.locations[k])
    ensures out.1.version == st.version && out.1.lastUpdated == st.lastUpdated
  {
    var key := Key(locationName, provider, interval);
    if key in st.locations then
      (st.locations[key], st)
    else
      var entry := NewLocationFetchState(locationName, provider, interval, now);
      (entry, st.(locations := st.locations[key := entry]))
  }

  /** A second lookup with the same arguments finds what the first created and changes nothing. */
  lemma GetLocationIdempotent(st: PipelineState, locationName: string, provider: string, interval: string, now: Instant, later: Instant)
    ensures var (e1, st1) := GetLocation(st, locationName, provider, interval, now);
            GetLocation(st1, locationName, provider, interval, later) == (e1, st1)
  {
  }

  /** A record created by a lookup is filed under the key its own fields produce. */
  lemma CreatedEntryKey(st: PipelineState, locationName: string, provider: string, interval: string, now: Instant)
    ensures var (e, _) := GetLocation(st, locationName, provider, interval, now);
            Key(locationName, provider, interval) !in st.locations ==>
              KeyOf(e) == Key(locationName, provider, interval)
  {
  }

  /** Every entry is filed under the key its own identity fields produce. Nothing in the state
      document's schema enforces this; states built only through these operations keep it. */
  ghost predicate WellKeyed(st: PipelineState) {
    forall k :: k in st.locations ==> KeyOf(st.locations[k]) == k
  }

  lemma NewStateWellKeyed(now: Instant)
    ensures WellKeyed(NewPipelineState(now))
  {
  }

  /** A lookup keeps a well-keyed state well-keyed, and what it returns carries the identity asked for. */
  lemma GetLocationKeepsWellKeyed(st: PipelineState, locationName: string, provider: string, interval: string, now: Instant)
    requires WellKeyed(st)
    ensures var (e, st') := GetLocation(st, locationName, provider, interval, now);
            WellKeyed(st') && KeyOf(e) == Key(locationName, provider, interval)
  {
  }

  function UpdateLastModified(st: PipelineState, now: Instant): (st': PipelineState)
    ensures st'.lastUpdated == now && st'.version == st.version && st'.locations == st.locations
  {
    st.(lastUpdated := now)
  }

  /** Keys tell providers, intervals and locations apart as long as provider and interval names
      carry no colon (location names may). */
  lemma KeyInjective(n1: string, p1: string, i1: string, n2: string, p2: string, i2: string)
    requires Free(p1, ':') && Free(i1, ':') && Free(p2, ':') && Free(i2, ':')
    requires Key(n1, p1, i1) == Key(n2, p2, i2)
    ensures n1 == n2 && p1 == p2 && i1 == i2
  {
    assert Key(n1, p1, i1) == p1 + ":" + (i1 + ":" + n1);
    assert Key(n2, p2, i2) == p2 + ":" + (i2 + ":" + n2);
    PrefixSplit(p1, i1 + ":" + n1, p2, i2 + ":" + n2, ':');
    PrefixSplit(i1, n1, i2, n2, ':');
  }

  /** Without that proviso the key is not collision-free: two different providers and intervals
      that share a location name can be filed under one key. */
  lemma KeyCollision()
    ensures Key("London", "open:meteo", "daily") == Key("London", "open", "meteo:daily")
  {
  }
}

=== FILE: text.dfy ===
/** Joining strings with a one-character separator and splitting them again, with Python's
    `sep.join(xs)` and `s.split(sep)` semantics: splitting always yields at least one piece. */
module Text {

  /** `s` does not contain `sep`. */
  predicate Free(s: string, sep: char) {
    forall i :: 0 <= i < |s| ==> s[i] != sep
  }

  /** Position of the first `sep` in `s`, or `|s|` when there is none. */
  function IndexOf(s: string, sep: char): (i: nat)
    ensures i <= |s|
    ensures i < |s| ==> s[i] == sep
    ensures Free(s[..i], sep)
  {
    if s == [] then 0
    else if s[0] == sep then 0
    else
      var j := IndexOf(s[1..], sep);
      assert s[..1 + j] == [s[0]] + s[1..][..j];
      1 + j
  }

  lemma {:induction false} IndexOfJoin(a: string, sep: char, b: string)
    requires Free(a, sep)
    ensures IndexOf(a + [sep] + b, sep) == |a|
  {
    if a != [] {
      assert (a + [sep] + b)[1..] == a[1..] + [sep] + b;
      IndexOfJoin(a[1..], sep, b);
    }
  }

  /** Cutting at the first separator undoes gluing a separator-free prefix onto anything. */
  lemma PrefixSplit(a: string, b: string, c: string, d: string, sep: char)
    requires Free(a, sep) && Free(c, sep)
    requires a + [sep] + b == c + [sep] + d
    ensures a == c && b == d
  {
    var s := a + [sep] + b;
    IndexOfJoin(a, sep, b);
    IndexOfJoin(c, sep, d);
    assert a == s[..|a|] == c;
    assert b == s[|a| + 1..] == d;
  }

  /** `sep.join(xs)`. */
  function Join(xs: seq<string>, sep: char): string {
    if |xs| == 0 then ""
    else if |xs| == 1 then xs[0]
    else xs[0] + [sep] + Join(xs[1..], sep)
  }

  /** `s.split(sep)`: the pieces between separators, at least one. */
  function Split(s: string, sep: char): (parts: seq<string>)
    ensures |parts| >= 1
  {
    if s == [] then [""]
    else
      var rest := Split(s[1..], sep);
      if s[0] == sep then [""] + rest else [[s[0]] + rest[0]] + rest[1..]
  }

  /** A string without the separator is a single piece. */
  lemma {:induction false} SplitFree(s: string, sep: char)
    requires Free(s, sep)
    ensures Split(s, sep) == [s]
  {
    if s != [] {
      SplitFree(s[1..], sep);
      assert [s[0]] + s[1..] == s;
    }
  }

  /** Splitting at a joint splits each side: the pieces of both parts, in order. */
  lemma {:induction false} SplitConcat(a: string, b: string, sep: char)
    ensures Split(a + [sep] + b, sep) == Split(a, sep) + Split(b, sep)
  {
    var s := a + [sep] + b;
    if a == [] {
      assert s[1..] == b;
    } else {
      assert s[1..] == a[1..] + [sep] + b;
      SplitConcat(a[1..], b, sep);
    }
  }

  /** Splitting a joined list gives the list back, when no piece contains the separator and the
      list is not empty (the empty list joins to "", which splits to [""]). */
  lemma {:induction false} SplitJoin(xs: seq<string>, sep: char)
    requires |xs| >= 1
    requires forall k :: 0 <= k < |xs| ==> Free(xs[k], sep)
    ensures Split(Join(xs, sep), sep) == xs
  {
    SplitFree(xs[0], sep);
    if |xs| > 1 {
      SplitConcat(xs[0], Join(xs[1..], sep), sep);
      SplitJoin(xs[1..], sep);
      assert [xs[0]] + xs[1..] == xs;
    }
  }
}

=== FILE: transforms.dfy ===
/** From one fetched payload to standardized rows, and the partition path of a location's rows
    (weather_pipeline/transforms/transform.py). `datetime.fromisoformat` is the parameter
    `parse`: it yields a `DateTime`, or `None` where Python raises `ValueError`/`TypeError`. */
module Transforms {

  import opened Wrappers
  import opened Calendar
  import opened Text
  import opened Schemas

  type Parser = string -> Option<DateTime>

  /** Why a transform raises instead of returning a frame. */
  datatype TransformError =
    | MissingKey(key: string)                  // `KeyError` on the section or its `time` series
    | BadTimestamp(index: nat)                 // `fromisoformat` rejects `time[index]`
    | SeriesTooShort(field: string, index: nat) // `IndexError` reading `series[index]`
    | BadIsoFormat(text: string)               // `fromisoformat` rejects an ingestion timestamp

  /** Payload field names read by the hourly transform, in the order the row's measurement
      fields are filled. `cloudcover` and `weathercode` feed `cloud_cover` and `weather_code`. */
  const HourlyFields: seq<string> :=
    ["temperature_2m", "precipitation", "relative_humidity_2m", "windspeed_10m",
     "wind_direction_10m", "cloudcover", "weathercode"]

  /** Payload field names read by the daily transform, in row order. */
  const DailyFields: seq<string> := ["temperature_2m_max", "temperature_2m_min", "precipitation_sum"]

  /** All `n` results of `f`, or the error of the first index that fails. */
  function Collect<T, E>(n: nat, f: nat -> Result<T, E>): (r: Result<seq<T>, E>)
    ensures r.Ok? <==> (forall i :: 0 <= i < n ==> f(i).Ok?)
    ensures r.Ok? ==> |r.value| == n && forall i :: 0 <= i < n ==> f(i) == Ok(r.value[i])
    ensures r.Err? ==> exists i :: 0 <= i < n && f(i) == Err(r.error) && forall j :: 0 <= j < i ==> f(j).Ok?
  {
    if n == 0 then Ok([])
    else
      match Collect(n - 1, f)
      case Err(e) => Err(e)
      case Ok(prefix) =>
        match f(n - 1)
        case Err(e) => Err(e)
        case Ok(last) => Ok(prefix + [last])
  }

  /** `block.get(field, [None] * len(time))[i]`. */
  function Cell(block: map<string, Series>, field: string, i: nat): Result<Scalar, TransformError> {
    if field !in block then Ok(Null)
    else if i < |block[field]| then Ok(block[field][i])
    else Err(SeriesTooShort(field, i))
  }

  /** The value the row at index `i` holds for `field`, given the read succeeds. */
  function CellValue(block: map<string, Series>, field: string, i: nat): Scalar {
    if field in block && i < |block[field]| then block[field][i] else Null
  }

  /** `datetime.fromisoformat(time[i])`. */
  function TimeAt(time: Series, i: nat, parse: Parser): Result<DateTime, TransformError> {
    if i < |time| && time[i].Str? && parse(time[i].s).Some? then Ok(parse(time[i].s).value)
    else Err(BadTimestamp(i))
  }

  /** The measurement cells of row `i`, read in field order. */
  function Cells(block: map<string, Series>, fields: seq<string>, i: nat): Result<seq<Scalar>, TransformError> {
    Collect(|fields|, CellReader(block, fields, i))
  }

  /** Reads field `k` of row `i`. */
  function CellReader(block: map<string, Series>, fields: seq<string>, i: nat): nat -> Result<Scalar, TransformError> {
    (k: nat) => if k < |fields| then Cell(block, fields[k], i) else Ok(Null)
  }

  /** Row `i` of the hourly frame: its timestamp is parsed first, then each measurement is read. */
  function HourlyRowAt(r: FetchResult, block: map<string, Series>, time: Series, i: nat, runId: Option<string>, parse: Parser)
    : Result<WeatherRow, TransformError>
  {
    var t :- TimeAt(time, i, parse);
    var c :- Cells(block, HourlyFields, i);
    Ok(HourlyRow(r.location.name, r.location.latitude, r.location.longitude,
                 r.apiMetadata.apiLatitude, r.apiMetadata.apiLongitude, t,
                 c[0], c[1], c[2], c[3], c[4], c[5], c[6],
                 DefaultSourceApi, r.ingestionMetadata.ingestionTimestampUtc, runId))
  }

  /** Row `i` of the daily frame. */
  function DailyRowAt(r: FetchResult, block: map<string, Series>, time: Series, i: nat, runId: Option<string>, parse: Parser)
    : Result<WeatherRow, TransformError>
  {
    var t :- TimeAt(time, i, parse);
    var c :- Cells(block, DailyFields, i);
    Ok(DailyRow(r.location.name, r.location.latitude, r.location.longitude,
                r.apiMetadata.apiLatitude, r.apiMetadata.apiLongitude, t,
                c[0], c[1], c[2],
                DefaultSourceApi, r.ingestionMetadata.ingestionTimestampUtc, runId))
  }

  /** Whether a section can be turned into rows: it exists, has a `time` series whose entries all
      parse, and every measurement series it carries is at least as long as `time`. */
  predicate Transformable(r: FetchResult, section: string, fields: seq<string>, parse: Parser) {
    && section in r.data.sections
    && "time" in r.data.sections[section]
    && var block := r.data.sections[section];
       var time := block["time"];
       && (forall i :: 0 <= i < |time| ==> TimeAt(time, i, parse).Ok?)
       && (forall k :: 0 <= k < |fields| && fields[k] in block ==> |time| <= |block[fields[k]]|)
  }

  /** The section exists and has a `time` series. */
  predicate HasTime(r: FetchResult, section: string) {
    section in r.data.sections && "time" in r.data.sections[section]
  }

  /** What every row of a location's frame carries besides its time and measurements. */
  predicate Traceable(row: WeatherRow, r: FetchResult, runId: Option<string>) {
    && row.locationName == r.location.name
    && row.requestedLatitude == r.location.latitude
    && row.requestedLongitude == r.location.longitude
    && row.apiLatitude == r.apiMetadata.apiLatitude
    && row.apiLongitude == r.apiMetadata.apiLongitude
    && row.sourceApi == "open-meteo"
    && row.ingestionTimestampUtc == r.ingestionMetadata.ingestionTimestampUtc
    && row.runId == runId
  }

  /** Row `i` of an hourly frame as the payload dictates it. */
  predicate HourlyRowOf(row: WeatherRow, r: FetchResult, i: nat, runId: Option<string>, parse: Parser)
    requires HasTime(r, "hourly")
  {
    var block := r.data.sections["hourly"];
    var time := block["time"];
    && i < |time|
    && row.HourlyRow?
    && Traceable(row, r, runId)
    && time[i].Str? && Some(row.timestamp) == parse(time[i].s)
    && row.temperature2m == CellValue(block, "temperature_2m", i)
    && row.precipitation == CellValue(block, "precipitation", i)
    && row.relativeHumidity2m == CellValue(block, "relative_humidity_2m", i)
    && row.windspeed10m == CellValue(block, "windspeed_10m", i)
    && row.windDirection10m == CellValue(block, "wind_direction_10m", i)
    && row.cloudCover == CellValue(block, "cloudcover", i)
    && row.weatherCode == CellValue(block, "weathercode", i)
  }

  /** Row `i` of a daily frame as the payload dictates it. */
  predicate DailyRowOf(row: WeatherRow, r: FetchResult, i: nat, runId: Option<string>, parse: Parser)
    requires HasTime(r, "daily")
  {
    var block := r.data.sections["daily"];
    var time := block["time"];
    && i < |time|
    && row.DailyRow?
    && Traceable(row, r, runId)
    && time[i].Str? && Some(row.date) == parse(time[i].s)
    && row.temperature2mMax == CellValue(block, "temperature_2m_max", i)
    && row.temperature2mMin == CellValue(block, "temperature_2m_min", i)
    && row.precipitationSum == CellValue(block, "precipitation_sum", i)
  }

  lemma CellsOk(block: map<string, Series>, fields: seq<string>, i: nat)
    requires forall k :: 0 <= k < |fields| && fields[k] in block ==> i < |block[fields[k]]|
    ensures Cells(block, fields, i).Ok?
    ensures forall k :: 0 <= k < |fields| ==> Cells(block, fields, i).value[k] == CellValue(block, fields[k], i)
  {
    forall k | 0 <= k < |fields|
      ensures Cell(block, fields[k], i).Ok?
    {
    }
  }

  lemma CellsErr(block: map<string, Series>, fields: seq<string>, i: nat, k: nat)
    requires k < |fields| && fields[k] in block && |block[fields[k]]| <= i
    ensures Cells(block, fields, i).Err?
  {
    assert CellReader(block, fields, i)(k).Err?;
  }

  /** The fields a section's rows read: `HourlyFields` for "hourly", `DailyFields` otherwise. */
  function FieldsOf(section: string): seq<string> {
    if section == "hourly" then HourlyFields else DailyFields
  }

  /** Row `i` of the frame built from `section`. */
  function RowAt(r: FetchResult, section: string, i: nat, runId: Option<string>, parse: Parser)
    : Result<WeatherRow, TransformError>
    requires section in r.data.sections && "time" in r.data.sections[section]
  {
    var block := r.data.sections[section];
    if section == "hourly" then HourlyRowAt(r, block, block["time"], i, runId, parse)
    else DailyRowAt(r, block, block["time"], i, runId, parse)
  }

  /** One row per entry of the section's `time` series, built in order; the first failure wins. */
  function RowsOf(r: FetchResult, section: string, runId: Option<string>, parse: Parser)
    : Result<seq<WeatherRow>, TransformError>
    requires section in r.data.sections && "time" in r.data.sections[section]
  {
    Collect(|r.data.sections[section]["time"]|, RowBuilder(r, section, runId, parse))
  }

  /** Builds row `i` of the frame from `section`. */
  function RowBuilder(r: FetchResult, section: string, runId: Option<string>, parse: Parser): nat -> Result<WeatherRow, TransformError> {
    (i: nat) => if section in r.data.sections && "time" in r.data.sections[section]
                then RowAt(r, section, i, runId, parse) else Err(MissingKey(section))
  }

  /** When row `i` can be built: its timestamp parses and every series present reaches index `i`. */
  lemma RowAtOk(r: FetchResult, section: string, i: nat, runId: Option<string>, parse: Parser)
    requires section in r.data.sections && "time" in r.data.sections[section]
    ensures var block := r.data.sections[section];
            var fields := FieldsOf(section);
            RowAt(r, section, i, runId, parse).Ok? <==>
              && TimeAt(block["time"], i, parse).Ok?
              && forall k :: 0 <= k < |fields| && fields[k] in block ==> i < |block[fields[k]]|
  {
    var block := r.data.sections[section];
    var fields := FieldsOf(section);
    if forall k :: 0 <= k < |fields| && fields[k] in block ==> i < |block[fields[k]]| {
      CellsOk(block, fields, i);
    } else {
      var k :| 0 <= k < |fields| && fields[k] in block && !(i < |block[fields[k]]|);
      CellsErr(block, fields, i, k);
    }
  }

  /** A built hourly row is the one the payload dictates. */
  lemma RowAtHourly(r: FetchResult, i: nat, runId: Option<string>, parse: Parser)
    requires HasTime(r, "hourly") && RowAt(r, "hourly", i, runId, parse).Ok?
    ensures HourlyRowOf(RowAt(r, "hourly", i, runId, parse).value, r, i, runId, parse)
  {
    RowAtOk(r, "hourly", i, runId, parse);
    CellsOk(r.data.sections["hourly"], HourlyFields, i);
  }

  /** A built daily row is the one the payload dictates. */
  lemma RowAtDaily(r: FetchResult, i: nat, runId: Option<string>, parse: Parser)
    requires HasTime(r, "daily") && RowAt(r, "daily", i, runId, parse).Ok?
    ensures DailyRowOf(RowAt(r, "daily", i, runId, parse).value, r, i, runId, parse)
  {
    RowAtOk(r, "daily", i, runId, parse);
    CellsOk(r.data.sections["daily"], DailyFields, i);
  }

  /** The row-by-row collection succeeds exactly when the section is transformable, and then
      each row is the one its index dictates. */
  lemma RowsOfSpec(r: FetchResult, section: string, runId: Option<string>, parse: Parser)
    requires section == "hourly" || section == "daily"
    requires section in r.data.sections && "time" in r.data.sections[section]
    ensures RowsOf(r, section, runId, parse).Ok? <==> Transformable(r, section, FieldsOf(section), parse)
    ensures var res := RowsOf(r, section, runId, parse);
            res.Ok? ==> |res.value| == |r.data.sections[section]["time"]|
    ensures var res := RowsOf(r, section, runId, parse);
            res.Ok? && section == "hourly" ==>
              forall i :: 0 <= i < |res.value| ==> HourlyRowOf(res.value[i], r, i, runId, parse)
    ensures var res := RowsOf(r, section, runId, parse);
            res.Ok? && section == "daily" ==>
              forall i :: 0 <= i < |res.value| ==> DailyRowOf(res.value[i], r, i, runId, parse)
  {
    var block := r.data.sections[section];
    var time := block["time"];
    var fields := FieldsOf(section);
    var res := RowsOf(r, section, runId, parse);
    forall i | 0 <= i < |time|
      ensures RowAt(r, section, i, runId, parse).Ok? <==>
                && TimeAt(time, i, parse).Ok?
                && forall k :: 0 <= k < |fields| && fields[k] in block ==> i < |block[fields[k]]|
    {
      RowAtOk(r, section, i, runId, parse);
    }
    if Transformable(r, section, fields, parse) {
      assert res.Ok?;
      forall i | 0 <= i < |res.value|
        ensures section == "hourly" ==> HourlyRowOf(res.value[i], r, i, runId, parse)
        ensures section == "daily" ==> DailyRowOf(res.value[i], r, i, runId, parse)
      {
        assert RowAt(r, section, i, runId, parse) == Ok(res.value[i]);
        if section == "hourly" {
          RowAtHourly(r, i, runId, parse);
        } else {
          RowAtDaily(r, i, runId, parse);
        }
      }
    } else if i :| 0 <= i < |time| && !TimeAt(time, i, parse).Ok? {
      assert !RowBuilder(r, section, runId, parse)(i).Ok?;
    } else {
      var k :| 0 <= k < |fields| && fields[k] in block && |block[fields[k]]| < |time|;
      var i := |block[fields[k]]|;
      assert !RowBuilder(r, section, runId, parse)(i).Ok?;
    }
  }

  /** `transform_hourly(result, run_id)`: one row per entry of `hourly.time`, or the error the
      source raises. */
  function TransformHourly(r: FetchResult, runId: Option<string>, parse: Parser): (res: Result<seq<WeatherRow>, TransformError>)
    ensures "hourly" !in r.data.sections ==> res == Err(MissingKey("hourly"))
    ensures "hourly" in r.data.sections && "time" !in r.data.sections["hourly"] ==> res == Err(MissingKey("time"))
    ensures res.Ok? <==> Transformable(r, "hourly", HourlyFields, parse)
    ensures res.Ok? ==>
              && |res.value| == |r.data.sections["hourly"]["time"]|
              && forall i :: 0 <= i < |res.value| ==> HourlyRowOf(res.value[i], r, i, runId, parse)
  {
    if "hourly" !in r.data.sections then Err(MissingKey("hourly"))
    else if "time" !in r.data.sections["hourly"] then Err(MissingKey("time"))
    else
      RowsOfSpec(r, "hourly", runId, parse);
      RowsOf(r, "hourly", runId, parse)
  }

  /** `transform_daily(result, run_id)`: one row per entry of `daily.time`, or the error the
      source raises. */
  function TransformDaily(r: FetchResult, runId: Option<string>, parse: Parser): (res: Result<seq<WeatherRow>, TransformError>)
    ensures "daily" !in r.data.sections ==> res == Err(MissingKey("daily"))
    ensures "daily" in r.data.sections && "time" !in r.data.sections["daily"] ==> res == Err(MissingKey("time"))
    ensures res.Ok? <==> Transformable(r, "daily", DailyFields, parse)
    ensures res.Ok? ==>
              && |res.value| == |r.data.sections["daily"]["time"]|
              && forall i :: 0 <= i < |res.value| ==> DailyRowOf(res.value[i], r, i, runId, parse)
  {
    if "daily" !in r.data.sections then Err(MissingKey("daily"))
    else if "time" !in r.data.sections["daily"] then Err(MissingKey("time"))
    else
      RowsOfSpec(r, "daily", runId, parse);
      RowsOf(r, "daily", runId, parse)
  }

  /** The payload with one series removed from a section. */
  function WithoutSeries(r: FetchResult, section: string, field: string): FetchResult
    requires section in r.data.sections
  {
    r.(data := r.data.(sections := r.data.sections[section := r.data.sections[section] - {field}]))
  }

  /** An hourly row with the measurement that payload field `field` feeds set to `None`. */
  function ClearHourly(row: WeatherRow, field: string): WeatherRow
    requires row.HourlyRow?
  {
    if field == "temperature_2m" then row.(temperature2m := Null)
    else if field == "precipitation" then row.(precipitation := Null)
    else if field == "relative_humidity_2m" then row.(relativeHumidity2m := Null)
    else if field == "windspeed_10m" then row.(windspeed10m := Null)
    else if field == "wind_direction_10m" then row.(windDirection10m := Null)
    else if field == "cloudcover" then row.(cloudCover := Null)
    else if field == "weathercode" then row.(weatherCode := Null)
    else row
  }

  /** Absence of one series blocks nothing: without it the hourly transform still succeeds, with
      the same rows except that the measurement it fed is `None` in every row. */
  lemma HourlyMissingSeriesIsNull(r: FetchResult, field: string, runId: Option<string>, parse: Parser)
    requires TransformHourly(r, runId, parse).Ok?
    requires field != "time"
    ensures var r' := WithoutSeries(r, "hourly", field);
            var rows := TransformHourly(r, runId, parse).value;
            && TransformHourly(r', runId, parse).Ok?
            && var rows' := TransformHourly(r', runId, parse).value;
               && |rows'| == |rows|
               && forall i :: 0 <= i < |rows| ==> rows'[i] == ClearHourly(rows[i], field)
  {
    var r' := WithoutSeries(r, "hourly", field);
    var block := r.data.sections["hourly"];
    var block' := r'.data.sections["hourly"];
    assert block' == block - {field};
    assert block'["time"] == block["time"];
    assert Transformable(r', "hourly", HourlyFields, parse) by {
      forall k | 0 <= k < |HourlyFields| && HourlyFields[k] in block'
        ensures |block'["time"]| <= |block'[HourlyFields[k]]|
      {
        assert HourlyFields[k] in block;
      }
    }
    var rows := TransformHourly(r, runId, parse).value;
    var rows' := TransformHourly(r', runId, parse).value;
    forall i | 0 <= i < |rows|
      ensures rows'[i] == ClearHourly(rows[i], field)
    {
      ClearedRow(rows[i], rows'[i], r, field, i, runId, parse);
    }
  }

  lemma ClearedRow(row: WeatherRow, row': WeatherRow, r: FetchResult, field: string, i: nat, runId: Option<string>, parse: Parser)
    requires field != "time"
    requires HasTime(r, "hourly")
    requires HourlyRowOf(row, r, i, runId, parse)
    requires HourlyRowOf(row', WithoutSeries(r, "hourly", field), i, runId, parse)
    ensures row' == ClearHourly(row, field)
  {
    var r' := WithoutSeries(r, "hourly", field);
    ClearedRowOf(row, r, field, i, runId, parse);
    HourlyRowOfUnique(ClearHourly(row, field), row', r', i, runId, parse);
  }

  /** Clearing the measurement a removed series fed gives the row of the reduced payload. */
  lemma ClearedRowOf(row: WeatherRow, r: FetchResult, field: string, i: nat, runId: Option<string>, parse: Parser)
    requires field != "time"
    requires HasTime(r, "hourly")
    requires HourlyRowOf(row, r, i, runId, parse)
    ensures HasTime(WithoutSeries(r, "hourly", field), "hourly")
    ensures HourlyRowOf(ClearHourly(row, field), WithoutSeries(r, "hourly", field), i, runId, parse)
  {
    var block := r.data.sections["hourly"];
    assert WithoutSeries(r, "hourly", field).data.sections["hourly"] == block - {field};
    CellValueWithout(block, field, "temperature_2m", i);
    CellValueWithout(block, field, "precipitation", i);
    CellValueWithout(block, field, "relative_humidity_2m", i);
    CellValueWithout(block, field, "windspeed_10m", i);
    CellValueWithout(block, field, "wind_direction_10m", i);
    CellValueWithout(block, field, "cloudcover", i);
    CellValueWithout(block, field, "weathercode", i);
  }

  /** The payload dictates each hourly row completely. */
  lemma HourlyRowOfUnique(a: WeatherRow, b: WeatherRow, r: FetchResult, i: nat, runId: Option<string>, parse: Parser)
    requires HasTime(r, "hourly")
    requires HourlyRowOf(a, r, i, runId, parse) && HourlyRowOf(b, r, i, runId, parse)
    ensures a == b
  {
  }

  /** A daily row with the measurement that payload field `field` feeds set to `None`. */
  function ClearDaily(row: WeatherRow, field: string): WeatherRow
    requires row.DailyRow?
  {
    if field == "temperature_2m_max" then row.(temperature2mMax := Null)
    else if field == "temperature_2m_min" then row.(temperature2mMin := Null)
    else if field == "precipitation_sum" then row.(precipitationSum := Null)
    else row
  }

  /** The daily counterpart of `HourlyMissingSeriesIsNull`: without one daily series the transform
      still succeeds, with that measurement `None` in every row and nothing else changed. */
  lemma DailyMissingSeriesIsNull(r: FetchResult, field: string, runId: Option<string>, parse: Parser)
    requires TransformDaily(r, runId, parse).Ok?
    requires field != "time"
    ensures var r' := WithoutSeries(r, "daily", field);
            var rows := TransformDaily(r, runId, parse).value;
            && TransformDaily(r', runId, parse).Ok?
            && var rows' := TransformDaily(r', runId, parse).value;
               && |rows'| == |rows|
               && forall i :: 0 <= i < |rows| ==> rows'[i] == ClearDaily(rows[i], field)
  {
    var r' := WithoutSeries(r, "daily", field);
    var block := r.data.sections["daily"];
    var block' := r'.data.sections["daily"];
    assert block' == block - {field};
    assert block'["time"] == block["time"];
    assert Transformable(r', "daily", DailyFields, parse) by {
      forall k | 0 <= k < |DailyFields| && DailyFields[k] in block'
        ensures |block'["time"]| <= |block'[DailyFields[k]]|
      {
        assert DailyFields[k] in block;
      }
    }
    var rows := TransformDaily(r, runId, parse).value;
    var rows' := TransformDaily(r', runId, parse).value;
    forall i | 0 <= i < |rows|
      ensures rows'[i] == ClearDaily(rows[i], field)
    {
      ClearedDailyRowOf(rows[i], r, field, i, runId, parse);
      DailyRowOfUnique(ClearDaily(rows[i], field), rows'[i], r', i, runId, parse);
    }
  }

  /** Clearing the measurement a removed daily series fed gives the row of the reduced payload. */
  lemma ClearedDailyRowOf(row: WeatherRow, r: FetchResult, field: string, i: nat, runId: Option<string>, parse: Parser)
    requires field != "time"
    requires HasTime(r, "daily")
    requires DailyRowOf(row, r, i, runId, parse)
    ensures HasTime(WithoutSeries(r, "daily", field), "daily")
    ensures DailyRowOf(ClearDaily(row, field), WithoutSeries(r, "daily", field), i, runId, parse)
  {
    var block := r.data.sections["daily"];
    assert WithoutSeries(r, "daily", field).data.sections["daily"] == block - {field};
    CellValueWithout(block, field, "temperature_2m_max", i);
    CellValueWithout(block, field, "temperature_2m_min", i);
    CellValueWithout(block, field, "precipitation_sum", i);
  }

  /** The payload dictates each daily row completely. */
  lemma DailyRowOfUnique(a: WeatherRow, b: WeatherRow, r: FetchResult, i: nat, runId: Option<string>, parse: Parser)
    requires HasTime(r, "daily")
    requires DailyRowOf(a, r, i, runId, parse) && DailyRowOf(b, r, i, runId, parse)
    ensures a == b
  {
  }

  lemma CellValueWithout(block: map<string, Series>, field: string, f: string, i: nat)
    ensures CellValue(block - {field}, f, i) == if f == field then Null else CellValue(block, f, i)
  {
  }

  /** Every 'Z' replaced by "+00:00", as `str.replace("Z", "+00:00")` does. */
  function ReplaceZ(s: string): (t: string)
    ensures Free(t, 'Z')
    ensures Free(s, 'Z') ==> t == s
  {
    if s == [] then []
    else (if s[0] == 'Z' then "+00:00" else [s[0]]) + ReplaceZ(s[1..])
  }

  /** The replacement works character by character: it distributes over concatenation. */
  lemma {:induction false} ReplaceZConcat(a: string, b: string)
    ensures ReplaceZ(a + b) == ReplaceZ(a) + ReplaceZ(b)
  {
    if a == [] {
      assert a + b == b;
    } else {
      assert (a + b)[0] == a[0];
      assert (a + b)[1..] == a[1..] + b;
      ReplaceZConcat(a[1..], b);
    }
  }

  /** A lone `Z` becomes the explicit UTC offset; any other character stays. */
  lemma ReplaceZChar(c: char)
    ensures ReplaceZ([c]) == (if c == 'Z' then "+00:00" else [c])
  {
    assert [c][1..] == [];
  }

  /** The case the replacement exists for: a timestamp ending in the `Z` designator, with no other
      `Z`, ends in `+00:00` instead and is otherwise unchanged. */
  lemma ReplaceTrailingZ(s: string)
    requires Free(s, 'Z')
    ensures ReplaceZ(s + "Z") == s + "+00:00"
  {
    ReplaceZConcat(s, "Z");
    ReplaceZChar('Z');
  }

  /** `interval/location_name/YYYY-MM-DD` for a calendar date. */
  function PartitionPathFor(locationName: string, interval: string, d: CivilDate): string {
    Join([interval, locationName, FullDate(d)], '/')
  }

  /** `get_partition_path(location_name, interval, ingestion_timestamp)`. */
  function PartitionPath(locationName: string, interval: string, ingestionTimestamp: string, parse: Parser)
    : (res: Result<string, TransformError>)
    ensures res.Ok? <==> parse(ReplaceZ(ingestionTimestamp)).Some?
    ensures res.Err? ==> res.error == BadIsoFormat(ingestionTimestamp)
    ensures res.Ok? ==>
              var d := parse(ReplaceZ(ingestionTimestamp)).value.date;
              res.value == interval + "/" + locationName + "/" + FullDate(d)
    ensures res.Ok? && Free(interval, '/') && Free(locationName, '/') ==>
              var d := parse(ReplaceZ(ingestionTimestamp)).value.date;
              Split(res.value, '/') == [interval, locationName, FullDate(d)]
  {
    match parse(ReplaceZ(ingestionTimestamp))
    case None => Err(BadIsoFormat(ingestionTimestamp))
    case Some(t) =>
      var p := PartitionPathFor(locationName, interval, t.date);
      var parts := [interval, locationName, FullDate(t.date)];
      assert parts[1..] == [locationName, FullDate(t.date)] && parts[1..][1..] == [FullDate(t.date)];
      assert Join(parts[1..][1..], '/') == FullDate(t.date);
      assert Join(parts[1..], '/') == locationName + "/" + FullDate(t.date);
      assert p == interval + "/" + (locationName + "/" + FullDate(t.date));
      PartitionPathSplits(locationName, interval, t.date);
      Ok(p)
  }

  lemma PartitionPathSplits(locationName: string, interval: string, d: CivilDate)
    ensures Free(interval, '/') && Free(locationName, '/') ==>
              Split(PartitionPathFor(locationName, interval, d), '/') == [interval, locationName, FullDate(d)]
  {
    if Free(interval, '/') && Free(locationName, '/') {
      var f := FullDate(d);
      forall i | 0 <= i < |f|
        ensures f[i] != '/'
      {
        if i < 4 {
          assert f[..4][i] == f[i];
        } else if 4 < i < 7 {
          assert f[5..7][i - 5] == f[i];
        } else if 7 < i {
          assert f[8..][i - 8] == f[i];
        }
      }
      SplitJoin([interval, locationName, f], '/');
    }
  }

  /** The path depends on the timestamp only through its calendar date. */
  lemma PartitionPathDateOnly(locationName: string, interval: string, ts1: string, ts2: string, parse: Parser)
    requires parse(ReplaceZ(ts1)).Some? && parse(ReplaceZ(ts2)).Some?
    requires parse(ReplaceZ(ts1)).value.date == parse(ReplaceZ(ts2)).value.date
    ensures PartitionPath(locationName, interval, ts1, parse) == PartitionPath(locationName, interval, ts2, parse)
  {
  }

  /** Paths of separator-free names tell interval, location and day apart. */
  lemma PartitionPathInjective(n1: string, i1: string, d1: CivilDate, n2: string, i2: string, d2: CivilDate)
    requires Free(n1, '/') && Free(i1, '/') && Free(n2, '/') && Free(i2, '/')
    requires PartitionPathFor(n1, i1, d1) == PartitionPathFor(n2, i2, d2)
    ensures n1 == n2 && i1 == i2 && d1 == d2
  {
    PartitionPathSplits(n1, i1, d1);
    PartitionPathSplits(n2, i2, d2);
    FullDateInjective(d1, d2);
  }
}

=== FILE: wrappers.dfy ===
/** Optional values and error-carrying results, shared by every module of the model.
    Python's `None` becomes `None`; an exception raised and caught becomes `Err`. */
module Wrappers {

  datatype Option<+T> = None | Some(value: T) {

    /** The wrapped value, or `default` when there is none (Python's `d.get(k, default)`). */
    function GetOr(default: T): T {
      match this
      case Some(v) => v
      case None => default
    }
  }

  datatype Result<+T, +E> = Ok(value: T) | Err(error: E) {

    predicate IsFailure() {
      Err?
    }

    function PropagateFailure<U>(): Result<U, E>
      requires Err?
    {
      Err(error)
    }

    function Extract(): T
      requires Ok?
    {
      value
    }
  }
}

=== FILE: writer.dfy ===
/** The Parquet writer's bookkeeping (weather_pipeline/writers/parquet.py): where each frame goes
    and how many rows each write reports. Encoding and the file system are not modelled: a frame
    is the sequence of its rows, and `datetime.now()` at each write is the parameter `clock`. */
module ParquetWriter {

  import opened Calendar
  import opened Text
  import opened Schemas
  import opened Transforms

  /** `data_{YYYYMMDDTHHMMSSZ}.parquet`. */
  function FileName(now: DateTime): (f: string)
    ensures |f| == 29 && f[..5] == "data_" && f[21..] == ".parquet" && Free(f, '/')
    ensures f[5..21] == CompactStamp(now)
  {
    var stamp := CompactStamp(now);
    var f := "data_" + stamp + ".parquet";
    assert forall i :: 0 <= i < |stamp| ==> stamp[i] != '/' by {
      assert stamp == Pad4(now.date.year) + Pad2(now.date.month) + Pad2(now.date.day) + "T"
        + Pad2(now.hour) + Pad2(now.minute) + Pad2(now.second) + "Z";
    }
    assert f[21..] == ".parquet";
    assert f[5..21] == stamp;
    f
  }

  /** `base_path / partition_path / filename`. */
  function FilePath(basePath: string, partitionPath: string, fileName: string): string {
    basePath + "/" + partitionPath + "/" + fileName
  }

  /** A file path's components are the base path's, then the partition's, then the file name. */
  lemma FilePathSplits(basePath: string, partitionPath: string, fileName: string)
    requires Free(fileName, '/')
    ensures Split(FilePath(basePath, partitionPath, fileName), '/') ==
              Split(basePath, '/') + Split(partitionPath, '/') + [fileName]
  {
    SplitConcat(basePath, partitionPath, '/');
    SplitConcat(basePath + "/" + partitionPath, fileName, '/');
    SplitFree(fileName, '/');
  }

  /** `write(df, partition_path)`: one file under `base_path/partition_path`, reporting the
      frame's row count. */
  function Write(basePath: string, rows: seq<WeatherRow>, partitionPath: string, now: DateTime): (w: WriteResult)
    ensures w.recordsWritten == |rows| && w.format == "parquet"
    ensures w.path == FilePath(basePath, partitionPath, FileName(now))
    ensures Split(w.path, '/') == Split(basePath, '/') + Split(partitionPath, '/') + [FileName(now)]
  {
    FilePathSplits(basePath, partitionPath, FileName(now));
    NewWriteResult(FilePath(basePath, partitionPath, FileName(now)), |rows|)
  }

  /** The location names of the rows, row by row. */
  function Names(rows: seq<WeatherRow>): (ns: seq<string>)
    ensures |ns| == |rows| && forall i :: 0 <= i < |rows| ==> ns[i] == rows[i].locationName
  {
    seq(|rows|, i requires 0 <= i < |rows| => rows[i].locationName)
  }

  predicate Distinct(xs: seq<string>) {
    forall i, j :: 0 <= i < j < |xs| ==> xs[i] != xs[j]
  }

  /** Each name once, in order of first appearance. */
  function Dedup(xs: seq<string>): (d: seq<string>)
    ensures Distinct(d)
    ensures forall n :: n in d <==> n in xs
  {
    if xs == [] then []
    else
      var prefix := xs[..|xs| - 1];
      var d := Dedup(prefix);
      assert xs == prefix + [xs[|xs| - 1]];
      if xs[|xs| - 1] in d then d else d + [xs[|xs| - 1]]
  }

  /** `df["location_name"].unique()`, in first-appearance order. */
  function DistinctNames(rows: seq<WeatherRow>): (names: seq<string>)
    ensures Distinct(names)
    ensures forall n :: n in names <==> n in Names(rows)
  {
    Dedup(Names(rows))
  }

  /** `df.filter(pl.col("location_name") == name)`: the rows of one location, in order. */
  function Group(rows: seq<WeatherRow>, name: string): (g: seq<WeatherRow>)
    ensures |g| > 0 <==> name in Names(rows)
  {
    if rows == [] then []
    else
      assert Names(rows) == [rows[0].locationName] + Names(rows[1..]);
      (if rows[0].locationName == name then [rows[0]] else []) + Group(rows[1..], name)
  }

  /** A location's group holds exactly the rows that carry its name. */
  lemma {:induction false} GroupMembers(rows: seq<WeatherRow>, name: string)
    ensures forall x :: x in Group(rows, name) <==> x in rows && x.locationName == name
  {
    if rows != [] {
      GroupMembers(rows[1..], name);
      assert rows == [rows[0]] + rows[1..];
    }
  }

  /** The partition of a location's rows, dated by its first row's ingestion timestamp. */
  function GroupPartition(rows: seq<WeatherRow>, name: string, interval: string): string
    requires name in Names(rows)
  {
    PartitionPathFor(name, interval, Group(rows, name)[0].ingestionTimestampUtc.date)
  }

  /** The write of one location's rows. */
  function WriteGroup(basePath: string, rows: seq<WeatherRow>, name: string, interval: string, now: DateTime): (w: WriteResult)
    requires name in Names(rows)
    ensures w.recordsWritten == |Group(rows, name)| && w.format == "parquet"
  {
    Write(basePath, Group(rows, name), GroupPartition(rows, name, interval), now)
  }

  /** `write_partitioned(df, interval)`: one write per distinct location, the k-th at `clock(k)`,
      each reporting all of its location's rows. */
  function WritePartitioned(basePath: string, rows: seq<WeatherRow>, interval: string, clock: nat -> DateTime)
    : (ws: seq<WriteResult>)
    ensures |ws| == |DistinctNames(rows)|
    ensures forall k :: 0 <= k < |ws| ==>
              ws[k].recordsWritten == |Group(rows, DistinctNames(rows)[k])| && ws[k].format == "parquet"
  {
    var names := DistinctNames(rows);
    var ws := seq(|names|, k requires 0 <= k < |names| => WriteGroup(basePath, rows, names[k], interval, clock(k)));
    assert forall k :: 0 <= k < |ws| ==> ws[k] == WriteGroup(basePath, rows, names[k], interval, clock(k));
    ws
  }

  /** The k-th file lands in the directory of the k-th location's partition, under the name
      stamped with `clock(k)`. */
  lemma WritePartitionedFile(basePath: string, rows: seq<WeatherRow>, interval: string, clock: nat -> DateTime, k: nat)
    requires k < |DistinctNames(rows)|
    ensures var name := DistinctNames(rows)[k];
            && name in Names(rows)
            && Split(WritePartitioned(basePath, rows, interval, clock)[k].path, '/') ==
                 Split(basePath, '/') + Split(GroupPartition(rows, name, interval), '/') + [FileName(clock(k))]
  {
    var name := DistinctNames(rows)[k];
    FilePathSplits(basePath, GroupPartition(rows, name, interval), FileName(clock(k)));
  }

  /** Total of the records the writes report. */
  function TotalRecords(ws: seq<WriteResult>): int {
    if ws == [] then 0 else ws[0].recordsWritten + TotalRecords(ws[1..])
  }

  /** Total size of the groups of the given names. */
  function GroupSizes(names: seq<string>, rows: seq<WeatherRow>): nat {
    if names == [] then 0 else |Group(rows, names[0])| + GroupSizes(names[1..], rows)
  }

  lemma {:induction false} GroupSizesCons(names: seq<string>, x: WeatherRow, rows: seq<WeatherRow>)
    requires Distinct(names)
    ensures GroupSizes(names, [x] + rows) == GroupSizes(names, rows) + (if x.locationName in names then 1 else 0)
  {
    if names != [] {
      assert ([x] + rows)[1..] == rows;
      assert Distinct(names[1..]) by {
        forall i, j | 0 <= i < j < |names[1..]|
          ensures names[1..][i] != names[1..][j]
        {
          assert names[1..][i] == names[i + 1] && names[1..][j] == names[j + 1];
        }
      }
      GroupSizesCons(names[1..], x, rows);
      assert x.locationName in names <==> x.locationName == names[0] || x.locationName in names[1..] by {
        assert names == [names[0]] + names[1..];
      }
      if x.locationName == names[0] {
        assert names[0] !in names[1..] by {
          forall j | 0 <= j < |names[1..]|
            ensures names[1..][j] != names[0]
          {
            assert names[1..][j] == names[j + 1];
          }
        }
      }
    }
  }

  /** Groups of distinct names that cover every row's name partition the rows by count. */
  lemma {:induction false} GroupSizesCover(names: seq<string>, rows: seq<WeatherRow>)
    requires Distinct(names)
    requires forall i :: 0 <= i < |rows| ==> rows[i].locationName in names
    ensures GroupSizes(names, rows) == |rows|
  {
    if rows == [] {
      GroupSizesEmpty(names);
    } else {
      assert rows == [rows[0]] + rows[1..];
      GroupSizesCover(names, rows[1..]);
      GroupSizesCons(names, rows[0], rows[1..]);
    }
  }

  lemma {:induction false} GroupSizesEmpty(names: seq<string>)
    ensures GroupSizes(names, []) == 0
  {
    if names != [] {
      GroupSizesEmpty(names[1..]);
    }
  }

  lemma {:induction false} TotalIsGroupSizes(ws: seq<WriteResult>, names: seq<string>, rows: seq<WeatherRow>)
    requires |ws| == |names|
    requires forall k :: 0 <= k < |ws| ==> ws[k].recordsWritten == |Group(rows, names[k])|
    ensures TotalRecords(ws) == GroupSizes(names, rows)
  {
    if ws != [] {
      TotalIsGroupSizes(ws[1..], names[1..], rows);
    }
  }

  /** No row is lost or written twice: the records the writes report add up to the frame's rows. */
  lemma WritePartitionedTotal(basePath: string, rows: seq<WeatherRow>, interval: string, clock: nat -> DateTime)
    ensures TotalRecords(WritePartitioned(basePath, rows, interval, clock)) == |rows|
  {
    var names := DistinctNames(rows);
    var ws := WritePartitioned(basePath, rows, interval, clock);
    TotalIsGroupSizes(ws, names, rows);
    forall i | 0 <= i < |rows|
      ensures rows[i].locationName in names
    {
      assert Names(rows)[i] == rows[i].locationName;
    }
    GroupSizesCover(names, rows);
  }
}
